=== FILE: README.md ===
# zCore: ELF loading, DDK validators, VMOs and the build tasks, in Dafny

This project models four pieces of zCore, a kernel written in Rust that
provides Zircon system calls and runs Linux programs, and proves properties
of them.

- **The Linux loader** (`linux-loader/src/lib.rs`). It loads the libc shared
  object into a fresh address region and applies its x86-64 dynamic
  relocations. It also computes the entry point, the initial stack pointer
  and the auxiliary vector.
  - The module `ElfLoader` covers the size of the LOAD footprint, segment
    flags to MMU flags, the page-rounded VMO of a segment, and the mapping
    of every LOAD segment.
  - It also covers symbol lookup, the `.dynsym` and `.rela.dyn` lookups, and
    the RELA relocation types GLOB_DAT (6), JUMP_SLOT (7) and RELATIVE (8)
    of the System V AMD64 psABI, section 4.4.
  - The parsed ELF file is an abstract value. Memory is a map from address
    to 64-bit word.
- **The DDK system calls** (`zircon-syscall/src/ddk.rs`). The module `Ddk`
  models the argument validation of `sys_iommu_create`, `sys_bti_create`
  and `sys_bti_pin`. Each is a total function that returns the status of
  the first failing check, or what the call goes on to do.
  - Each validator is also proved equal to its table of checks in order,
    so the error precedence is explicit.
- **Virtual memory objects** (`zircon-object/src/vm/vmo/`). Two modules
  cover them.
  - `PhysicalVmo` is the fixed, page-aligned window onto physical memory:
    bounds-checked read and write, and page addresses.
  - `VmObjects` is the kernel-object wrapper: construction, children,
    resizability gating of `set_len`, the information record with its
    32-byte name field and RESIZABLE flag, and the default `unmap_from`.
- **The build tasks** (`xtask/src/arch.rs`). Two modules cover them.
  - `Xtask` holds the architecture name parser/printer, the directory
    helpers and the choice of prebuilt archive.
  - `Rootfs` models the working tree as a map from paths to directories,
    files and symbolic links. On that map it models `make_rootfs` (when it
    skips, what a rebuild leaves), `put_libc_test`, `put_other_test` and
    the loader swap of `image`.

`Zircon` holds what the modules share: bytes, `PAGE_SIZE` (0x1000), page
arithmetic, status codes, and an `Outcome` type. `Outcome` has three cases:
the call completed, it returned an error status, or the kernel stopped on a
failed `unwrap`/`unimplemented!`.

Panics are modelled in two ways:
- When a failing `unwrap`, `unimplemented!` or index is part of an
  operation's behaviour, it is an outcome: `Outcome.Panicked`,
  `Lookup.DataUnreadable`, `RelocOutcome.Aborted`, or `None` in the build
  tasks.
- When the code asserts a plain precondition, it is a `requires`: physical
  address alignment. The physical read/write bound check is modelled as
  computed, in `usize` (`PhysicalVmo.Access`). The `unwrap` of an
  empty maximum in `load_segment_size` and of the missing first VMO in
  `load_from_elf` is a `requires` too: at least one LOAD header.

`usize` arithmetic in the loader and in the physical VMO wraps modulo 2^64
(`Zircon.Wrap`), as in a release build; a debug build stops on overflow in
those sums instead, and that stop is not modelled. The stack-pointer computation uses
`bv64`.

## Model

| member | source | states |
|---|---|---|
| ElfLoader.ToMmuFlags | linux-loader/src/lib.rs:211-225 | READ is present iff the readable bit is set, WRITE iff the writable bit, EXECUTE iff the executable bit; no other flag is produced |
| ElfLoader.MmuFlagsRoundTrip | linux-loader/src/lib.rs:211-225 | the flag mapping loses exactly the non-permission bits, and every MMU flag set comes from some segment flags |
| ElfLoader.MaxLoadPages | linux-loader/src/lib.rs:105-112 | the result is at least the page count reaching the end of every LOAD segment, and is attained by one of them; non-LOAD headers do not count |
| ElfLoader.LoadSegmentSize | linux-loader/src/lib.rs:105-112 | with at least one LOAD header, the footprint is page-aligned, reaches the end of every LOAD segment, and is less than one page past the end of some LOAD segment |
| ElfLoader.FirstNamed | linux-loader/src/lib.rs:115-126 | not found iff no entry has the name; otherwise the value of the earliest entry with that name |
| ElfLoader.GetSymbolAddress | linux-loader/src/lib.rs:115-126 | the answer is the first matching entry over the symbol tables of the sections before the first unreadable one, in section order then entry order; the lookup stops on unreadable data iff there is an unreadable section and no match before it; with every section readable it is the first match over all tables |
| ElfLoader.ReadablePrefix | linux-loader/src/lib.rs:116-117 | the sections the lookup can scan: a prefix of the sections, all readable, followed by an unreadable one or by nothing |
| ElfLoader.ReadablePrefixIs | linux-loader/src/lib.rs:116-117 | a readable prefix followed by an unreadable section, or by the end, is that scanned prefix |
| ElfLoader.FoundBeforeUnreadable | linux-loader/src/lib.rs:116-121 | a match in a readable section with none earlier is also the first match over the scanned prefix |
| ElfLoader.FindSection | linux-loader/src/lib.rs:129-131 | none iff no section has the name; otherwise the index of the first section with it |
| ElfLoader.DynSym | linux-loader/src/lib.rs:128-138 | ".dynsym not found" iff there is no such section; "corrupted .dynsym" when the first one cannot be read; "bad .dynsym" when it can be read but is not a dynamic symbol table; otherwise its entries |
| ElfLoader.RelaDyn | linux-loader/src/lib.rs:141-149 | ".rela.dyn not found" iff there is no such section; "corrupted .rela.dyn" when the first one cannot be read; "bad .rela.dyn" when it can be read but is not a RELA table; otherwise its entries |
| ElfLoader.RelaInfo | linux-loader/src/lib.rs:155-157 | packing a symbol index and a type into an info field is undone by reading the type and the symbol index back |
| ElfLoader.ApplyEntry | linux-loader/src/lib.rs:151-178 | RELATIVE stores base+addend at base+offset; GOT/PLT with a defined symbol stores base+value+addend there; an undefined symbol or unknown type stops the process; an entry succeeds iff it is resolvable |
| ElfLoader.ApplyAll | linux-loader/src/lib.rs:151-180 | the entries all apply iff every entry is resolvable; relocation never reports an error string once the tables are found |
| ElfLoader.RelocationKeepsOthers | linux-loader/src/lib.rs:151-180 | after a successful run, an address no entry targets is present and valued exactly as before |
| ElfLoader.RelocationLastWins | linux-loader/src/lib.rs:151-180 | after a successful run, an address holds the value of the last entry that targets it |
| ElfLoader.Relocate | linux-loader/src/lib.rs:140-181 | `.rela.dyn` errors come first, then `.dynsym` errors, both before any write; it fails with a message iff one of the two lookups fails; once both tables are found it applies the entries in order, so it relocates iff every entry is resolvable |
| ElfLoader.RelativeRelocation | linux-loader/src/lib.rs:170-176 | a table of RELATIVE entries with distinct targets relocates successfully and leaves base+addend at base+offset for every entry |
| ElfLoader.MakeVmo | linux-loader/src/lib.rs:227-238 | building a segment's VMO fails, with INVALID_ARGS, exactly when the payload is not raw bytes |
| ElfLoader.MakeVmoLayout | linux-loader/src/lib.rs:227-238 | a raw-bytes segment's VMO spans pages(memsz + vaddr mod PAGE_SIZE) whole pages and holds the payload at the in-page offset and zeros everywhere else |
| ElfLoader.Loads | linux-loader/src/lib.rs:193-196 | exactly the LOAD headers are kept, and the result is no longer than the file's header list |
| ElfLoader.LoadsAppend | linux-loader/src/lib.rs:193-196 | the LOAD headers keep the file order: those of a concatenation are those of the first part followed by those of the second |
| ElfLoader.LoadsOne | linux-loader/src/lib.rs:193-196 | a single header is kept once if it is a LOAD header and dropped otherwise; with LoadsAppend this fixes the whole result |
| ElfLoader.LoadsCount | linux-loader/src/lib.rs:193-196 | every LOAD header occurs in the result exactly as many times as in the file |
| ElfLoader.FirstLoad | linux-loader/src/lib.rs:193-201 | the position of a LOAD header with no LOAD header before it |
| ElfLoader.LoadsFirst | linux-loader/src/lib.rs:193-203 | there are LOAD headers iff some header is a LOAD header, and the first of them is the file's first LOAD header |
| ElfLoader.MapSegments | linux-loader/src/lib.rs:191-204 | the segments are mapped in order, each as that segment's VMO at its page-rounded address; it stops with INVALID_ARGS at the first segment that is not raw bytes, which happens iff there is one, with the segments before it mapped; otherwise all are mapped |
| ElfLoader.StructuredLoads | linux-loader/src/lib.rs:191-204 | some program header is a LOAD with a non-byte payload exactly when one of the LOAD headers, taken in order, is |
| ElfLoader.MapLoads | linux-loader/src/lib.rs:191-204 | INVALID_ARGS iff some LOAD payload is not raw bytes; the LOAD segments before the first such one stay mapped, in order, each its VMO mapped whole at its page-rounded address with its MMU flags; without error every LOAD header is mapped |
| ElfLoader.LoadFromElf | linux-loader/src/lib.rs:191-204 | fails with INVALID_ARGS iff some LOAD payload is not raw bytes, leaving the earlier LOAD segments mapped; otherwise every LOAD segment is mapped and the returned VMO is the one built for the first LOAD header of the file |
| ElfLoader.InitialStackPointer | linux-loader/src/lib.rs:49-51 | the stack pointer is 16-byte aligned, at most the stack top, and less than 16 bytes below it |
| ElfLoader.StartOf | linux-loader/src/lib.rs:56-64 | the auxiliary vector has exactly the five keys BASE, PHDR, PHENT, PHNUM and PAGESZ, with BASE the load base and PAGESZ the page size |
| ElfLoader.StartOfOffsets | linux-loader/src/lib.rs:47-60 | the entry point and the program-header address are the file's offsets shifted by the base: subtracting the vector's BASE recovers the header's entry point and program-header offset modulo 2^64 |
| ElfLoader.WrapShift | linux-loader/src/lib.rs:47 | subtracting the base undoes a wrapping addition of it, modulo 2^64 |
| Ddk.OptionBitsDistinct | zircon-syscall/src/ddk.rs:141-149 | the five pin options are distinct single bits whose union is 0x1f |
| Ddk.FromBitsTruncate | zircon-syscall/src/ddk.rs:94 | no unknown bit survives, and each of the five known bits survives iff it was given |
| Ddk.IommuCreate | zircon-syscall/src/ddk.rs:28-35 | success iff the resource check passes, the descriptor size is exactly 1 and the copy succeeds; a failing resource check wins; any other size, above 4096 included, is INVALID_ARGS |
| Ddk.IommuCreateByTable | zircon-syscall/src/ddk.rs:28-35 | the validator returns the status of the first failing check in the order resource, size > 4096, size != 1, copy |
| Ddk.BtiCreate | zircon-syscall/src/ddk.rs:55-62 | nonzero options give INVALID_ARGS before the IOMMU lookup; then the lookup error; then INVALID_ARGS for an invalid bus transaction id; success iff none of these |
| Ddk.BtiCreateByTable | zircon-syscall/src/ddk.rs:55-62 | the BTI validator returns the status of the first failing check in source order: options, IOMMU lookup, bus transaction id |
| Ddk.BtiPin | zircon-syscall/src/ddk.rs:84-127 | a failing BTI lookup wins, then misalignment is INVALID_ARGS; success implies alignment, MAP on the VMO handle, the rights each permission needs (READ for execute), never COMPRESS with CONTIGUOUS, CONTIGUOUS only on a contiguous VMO, and permissions exactly the requested bits |
| Ddk.PinRightsBeforeContiguity | zircon-syscall/src/ddk.rs:89-125 | a missing MAP right, or a missing right a requested permission needs, gives ACCESS_DENIED whatever the COMPRESS/CONTIGUOUS bits are |
| Ddk.PinIgnoresUnknownBits | zircon-syscall/src/ddk.rs:94 | option bits outside the five known ones do not change the result |
| Ddk.BtiPinByTableFound | zircon-syscall/src/ddk.rs:94-127 | once the BTI passes, the range is aligned and the VMO is found, the rights and option checks run in source order, the first failing one gives the status, and success asks for exactly the requested permissions |
| Ddk.BtiPinByTable | zircon-syscall/src/ddk.rs:84-127 | the validator returns the status of the first failing check in source order, and on success asks for exactly the requested permissions |
| PhysicalVmo.New | zircon-object/src/vm/vmo/physical.rs:12-25 | given a page-aligned address and memory the caller owns (inside the address space), the window starts there and is pages * PAGE_SIZE bytes long |
| PhysicalVmo.Len | zircon-object/src/vm/vmo/physical.rs:41-43 | the length is a whole number of pages, as many as the VMO has, and for a valid window it does not wrap |
| PhysicalVmo.Read | zircon-object/src/vm/vmo/physical.rs:29-33 | a range inside the window is read from it, byte for byte; for `usize` arguments, a range whose end overflows 2^64 and wraps to at most the length passes the check and reads from `paddr + offset` (wrapped), outside the window; every other range stops at the assert |
| PhysicalVmo.Write | zircon-object/src/vm/vmo/physical.rs:35-39 | a range inside the window is written: address, page count and length are unchanged, the range reads back as written, and every other byte is unchanged; the wrapped end passes the check and writes from `paddr + offset` (wrapped) exactly as for Read; every other range stops at the assert |
| PhysicalVmo.WrappedCheckPasses | zircon-object/src/vm/vmo/physical.rs:29-39 | offset 2^64-2 with four bytes passes the check of any window of at least one page, and the access starts two bytes below the window |
| PhysicalVmo.GetPage | zircon-object/src/vm/vmo/physical.rs:49-51 | the page address is a page-aligned `usize`; for an index below the page count it is inside the window, the given number of pages past the start |
| PhysicalVmo.GetPageAliases | zircon-object/src/vm/vmo/physical.rs:49-51 | two page indices give the same address iff they agree modulo 2^52, the number of pages in the 64-bit address space |
| PhysicalVmo.GetPageAliasExample | zircon-object/src/vm/vmo/physical.rs:49-51 | page 0 and page 2^52 have the same address |
| PhysicalVmo.GetPageInjective | zircon-object/src/vm/vmo/physical.rs:49-51 | distinct pages of the window have distinct page addresses |
| PhysicalVmo.WriteThenRead | zircon-object/src/vm/vmo/physical.rs:29-39 | a write inside the window succeeds, the written range reads back as written, and a disjoint range reads as before |
| PhysicalVmo.ReadWriteExample | zircon-object/src/vm/vmo/physical.rs:89-93 | on two pages at 0x1000, writing 0,1,2,3 at offset 0 reads back 0,1,2,3 |
| VmObjects.NewPaged | zircon-object/src/vm/vmo/mod.rs:63-71 | the new VMO is resizable, unnamed, has parent koid 0 and length pages * PAGE_SIZE |
| VmObjects.NewPagedWithResizable | zircon-object/src/vm/vmo/mod.rs:73-81 | as above, but the resizability is the one given |
| VmObjects.NewPhysical | zircon-object/src/vm/vmo/mod.rs:89-97 | the new physical VMO is resizable, unnamed, has parent koid 0 and length pages * PAGE_SIZE |
| VmObjects.CreateChild | zircon-object/src/vm/vmo/mod.rs:99-108 | the child records the parent's koid, carries its name and the requested resizability; a physical parent stops the kernel, and that is the only failure |
| VmObjects.SetLen | zircon-object/src/vm/vmo/mod.rs:110-117 | refused with UNAVAILABLE iff the VMO is not resizable; a resizable physical VMO stops the kernel; on success only the memory changes |
| VmObjects.SetLenSucceedsIffResizable | zircon-object/src/vm/vmo/mod.rs:110-117 | on paged memory the call succeeds iff the VMO is resizable, and otherwise returns UNAVAILABLE |
| VmObjects.InfoName | zircon-object/src/vm/vmo/mod.rs:122-128 | the field is 32 bytes: byte i is the name's byte i when the name is that long, and zero otherwise |
| VmObjects.InfoNameRoundTrip | zircon-object/src/vm/vmo/mod.rs:122-128 | a name without zero bytes is recovered from its field, cut to 32 bytes |
| VmObjects.BaseInfo | zircon-object/src/vm/vmo/mod.rs:119-137 | the record carries the koid, the parent koid, the name field and size = length; RESIZABLE is set iff the VMO is resizable and no other flag is; the other counters, the committed bytes, the cache policy and the handle rights are zero (the `..Default::default()` fill) |
| VmObjects.GetInfo | zircon-object/src/vm/vmo/mod.rs:119-140 | a physical VMO stops the kernel (it cannot complete the record); otherwise the base record completed by the paged implementation |
| VmObjects.ChildInfo | zircon-object/src/vm/vmo/mod.rs:99-137 | a child's record names the parent's koid, has the parent's name field, and has RESIZABLE iff the child was created resizable |
| VmObjects.Read | zircon-object/src/vm/vmo/mod.rs:143-149 | the read is passed to the memory behind the VMO and returns exactly n bytes |
| VmObjects.Write | zircon-object/src/vm/vmo/mod.rs:143-149 | the write is passed to the memory behind the VMO; identity, parent, resizability, kind of memory and length are unchanged |
| VmObjects.WriteThenRead | zircon-object/src/vm/vmo/mod.rs:204-209 | bytes written at an offset read back from it, and every range disjoint from the written one reads as before, for paged and physical memory alike |
| VmObjects.ReadWriteTest | zircon-object/src/vm/vmo/physical.rs:89-93 | the wrapper's unit test holds on a two-page physical VMO at 0x1000 |
| VmObjects.UnmapCont | zircon-object/src/vm/vmo/mod.rs:28-30 | exactly the mappings of the `pages` page boundaries from vaddr are removed; every other mapping keeps its value |
| VmObjects.UnmapFrom | zircon-object/src/vm/vmo/mod.rs:25-31 | exactly len / PAGE_SIZE whole pages from vaddr are unmapped, whatever the offset; other mappings are kept |
| Xtask.FromStr | xtask/src/arch.rs:26-35 | success iff the lower-cased string is the name of an architecture, and then it is that architecture; otherwise an EnumParse error naming "Arch" and carrying the string as given |
| Xtask.AsStr | xtask/src/arch.rs:39-44 | the name is "riscv64" exactly for riscv64 and "x86_64" exactly for x86_64 |
| Xtask.AsStrInjective | xtask/src/arch.rs:39-44 | distinct architectures have distinct names |
| Xtask.AsStrIsLower | xtask/src/arch.rs:39-44 | the names are already lower case |
| Xtask.FromStrAsStr | xtask/src/arch.rs:26-44 | parsing the printed name gives back the architecture |
| Xtask.FromStrIgnoresCase | xtask/src/arch.rs:26-35 | strings equal up to the case of their letters parse alike |
| Xtask.FromStrExamples | xtask/src/arch.rs:26-35 | "RISCV64" and "X86_64" parse; "aarch64" is an EnumParse error carrying "aarch64" |
| Xtask.Rootfs | xtask/src/arch.rs:228-233 | the root file system is the two components `rootfs` and the architecture's name |
| Xtask.LibcTest | xtask/src/arch.rs:235-239 | the libc test directory is the component `libc-test` inside the root file system |
| Xtask.Origin | xtask/src/arch.rs:241-247 | the download directory is `ignored`, `origin` and the architecture's name |
| Xtask.Target | xtask/src/arch.rs:249-255 | the artefact directory is `ignored`, `target` and the architecture's name |
| Xtask.ArchivePath | xtask/src/arch.rs:260-264 | the archive is the archive name inside the download directory |
| Xtask.ExtractDir | xtask/src/arch.rs:274 | the extraction directory is `rootfs` inside the artefact directory |
| Xtask.PathsPerArch | xtask/src/arch.rs:228-255 | each directory helper gives distinct architectures distinct directories |
| Xtask.PathsDisjoint | xtask/src/arch.rs:228-255 | the libc test directory lies inside the root file system; root file systems, downloads and build artefacts never share a path |
| Xtask.ArchiveChoice | xtask/src/arch.rs:260-280 | the two archive names differ; the xz archive (riscv64) is extracted stripping one component and the gz archive (x86_64) stripping none |
| Xtask.ArchiveLocations | xtask/src/arch.rs:264-275 | the archive lies in the architecture's download directory and the extraction directory in its artefact directory, neither inside any root file system |
| Rootfs.Remove | xtask/src/arch.rs:88 | every entry inside the directory is gone and every other entry is kept |
| Rootfs.ClearDir | xtask/src/arch.rs:58 | the directory exists and is empty, and nothing outside it changes |
| Rootfs.MakeDir | xtask/src/arch.rs:59-60 | succeeds iff nothing is at the path; then the path is a directory and every other path is as before |
| Rootfs.CopyFile | xtask/src/arch.rs:62 | succeeds iff the source is a regular file; then the destination is a regular file with the source's contents and every other path is as before |
| Rootfs.SymlinkTo | xtask/src/arch.rs:78 | succeeds iff nothing is at the link path; then the path is a link to the target and every other path is as before |
| Rootfs.LinkAll | xtask/src/arch.rs:76-79 | succeeds iff the names are distinct and no entry exists yet; then it adds exactly a link to the target for every name and keeps all other entries |
| Rootfs.Subtree | xtask/src/arch.rs:157 | the relative tree holds exactly the entries below the directory, with their values |
| Rootfs.CopyDir | xtask/src/arch.rs:89 | succeeds iff the source is a directory; then every entry below it is mirrored below the destination, and nothing outside the destination changes |
| Rootfs.Downloaded | xtask/src/arch.rs:264-272 | the archive is fetched iff nothing is at its path; nothing else changes |
| Rootfs.PrebuildRootfs | xtask/src/arch.rs:258-282 | succeeds iff the archive is a regular file; then the extraction directory holds exactly the extracted entries, and nothing outside it but the archive changes |
| Rootfs.ExtractedEntries | xtask/src/arch.rs:274-280 | no entry inside the extraction directory is left over from before |
| Rootfs.AscendingDistinct | xtask/src/arch.rs:71-75 | names listed in strictly increasing dictionary order are pairwise distinct, and every earlier name comes before every later one |
| Rootfs.ShAscending | xtask/src/arch.rs:71-75 | the command names linked to busybox are listed in strictly increasing dictionary order |
| Rootfs.ShNames | xtask/src/arch.rs:71-75 | the 28 command names are distinct and none is busybox |
| Rootfs.Populate | xtask/src/arch.rs:56-79 | filling succeeds only when busybox and the loader are regular files at their sources; it then leaves bin and lib as directories, busybox and the loader with their sources' contents, and a link to busybox for every command |
| Rootfs.PopulateSources | xtask/src/arch.rs:58-69 | the copy sources lie outside the root file system and the created entries are distinct paths inside it |
| Rootfs.PopulateCopied | xtask/src/arch.rs:62-79 | after the directories are made and busybox is copied, filling succeeds iff the loader is a regular file, and then leaves the full layout and nothing changed outside the root file system |
| Rootfs.PopulateSpec | xtask/src/arch.rs:58-79 | filling the root file system succeeds iff busybox and the loader are regular files at their sources; it leaves exactly bin, lib, busybox, the loader and the links, and changes nothing outside the root file system |
| Rootfs.PopulateResult | xtask/src/arch.rs:71-79 | once the links are made, the layout is complete and nothing outside the root file system has changed |
| Rootfs.PlacedLayout | xtask/src/arch.rs:58-79 | a directory filled with two sub-directories, two copied files and links holds exactly those, and the rest of the tree is unchanged |
| Rootfs.MakeRootfs | xtask/src/arch.rs:49-54 | an existing root file system directory is kept as it is unless clearing is asked for |
| Rootfs.MakeRootfsRebuild | xtask/src/arch.rs:49-80 | a rebuild succeeds iff the archive, busybox and the loader are available; it leaves the 28 links, busybox and the loader from its per-architecture source, and changes nothing outside the root file system, the extraction directory and the archive |
| Rootfs.RebuildSources | xtask/src/arch.rs:56-69 | after extraction, busybox and the loader are regular files at their sources iff the build inputs are there, with the input contents |
| Rootfs.MakeRootfsIdempotent | xtask/src/arch.rs:49-54 | building again without clearing returns the same tree |
| Rootfs.Image | xtask/src/arch.rs:149-151 | the root file system is built first, and a failed build stops the task |
| Rootfs.ImageOf | xtask/src/arch.rs:153-180 | on riscv64 the root file system is packed as it is and the tree is unchanged |
| Rootfs.ImageLoaderSwap | xtask/src/arch.rs:160-176 | on x86_64 the image holds the musl loader from the extracted tree and otherwise the root file system as built; afterwards the tree's loader is the libos loader and nothing else changed |
| Rootfs.ImageOfRestores | xtask/src/arch.rs:172-176 | when the installed loader is already the libos loader, the x86_64 image leaves the tree as it was |
| Rootfs.ImageKeepsBuiltRootfs | xtask/src/arch.rs:149-176 | right after a rebuild, building the x86_64 image leaves the working tree exactly as the rebuild left it |
| Rootfs.PutLibcTest | xtask/src/arch.rs:83-91 | the root file system is built first, a failed build stops the task, and the suite is then copied into the built tree |
| Rootfs.LibcTestInto | xtask/src/arch.rs:87-91 | putting the suite in succeeds only when the repository is a directory; it then leaves a regular `config.mak` in the suite and changes nothing outside the suite's directory |
| Rootfs.LibcTestIntoSpec | xtask/src/arch.rs:86-91 | succeeds iff the repository is a directory with config.mak.def; the suite directory then mirrors the repository plus config.mak equal to config.mak.def, and nothing outside it changes |
| Rootfs.LibcTestCopied | xtask/src/arch.rs:88-89 | after removing the old suite and copying the repository, the suite directory holds exactly the repository's entries |
| Rootfs.PutOtherTest | xtask/src/arch.rs:120-146 | the root file system is built first; on riscv64 the prebuilt oscomp tests are then copied in; on x86_64 the tree is the built one |
| Rootfs.OtherTestInto | xtask/src/arch.rs:125-128 | succeeds iff the prebuilt oscomp directory exists; then it is mirrored into the root file system and nothing outside the destination changes |

## Left out

- Process and thread creation, the syscall-entry trampoline and writing its address into the VMO, the initial stack contents (`ProcInitInfo::push_at`), and starting the thread (linux-loader/src/lib.rs:25-46, 66-71). They are kernel object plumbing, not arithmetic.
- The ELF parser itself. The parsed file is an abstract value, so header parsing errors, `get_type().unwrap()` on an unknown segment type, and `get_name` errors on symbol names are not modelled.
- `map_at` failures in `load_from_elf`. Mapping is assumed to succeed. A segment whose VMO cannot be built does stop the loop with the earlier segments left mapped, and that is modelled (`ElfLoader.Mapped`).
- Overflow of the 64-bit `vaddr + memsz` in `load_segment_size` and `make_vmo`. Integers there are unbounded.
- ElfLoader.MakeVmo: requires the file size of a segment to be at most its memory size, as the System V gABI requires. The code ignores the status of the VMO write, so a longer payload would be cut or dropped there, and that case is not modelled.
- ElfLoader.ApplyEntry: for GLOB_DAT and JUMP_SLOT the code stores S + A, where section 4.4 of the psABI specifies S. The model follows the code; the two agree when the addend is zero.
- ElfLoader.ApplyEntry: when the name of an undefined symbol cannot be read, the code returns that error instead of stopping. This is not modelled; the process stops with the symbol's name.
- `pages()` and `PAGE_SIZE` come from the hardware abstraction layer, which is not part of this model. They are taken to be ceiling division by 0x1000 and 0x1000.
- The paged VMO implementation (`VMObjectPaged`) is not part of this model. Its contents are taken as zero on creation.
- VmObjects.SetLen: the paged resize is a parameter `resizePaged`, so the contract says only that the memory is replaced by its result. The new length is not stated.
- VmObjects.CreateChild: the paged child's memory is a parameter.
- VmObjects.GetInfo: the paged `complete_info` is a parameter.
- VmObjects.Read, VmObjects.Write: the model requires the range to lie inside the VMO. The trait's `read` and `write` return a `ZxResult` (zircon-object/src/vm/vmo/mod.rs:13, 16), so an implementation may refuse other ranges with an error; that error path is not modelled. For physical memory, the behaviour outside the window is stated by PhysicalVmo.Read and PhysicalVmo.Write. The result of a read is stated only by its length here, and its contents through VmObjects.WriteThenRead.
- VmObjects.BaseInfo: the `padding1` field of the info record is not modelled; it holds no information.
- The kernel object base (koid allocation, names set later) is reduced to a given koid and a name field.
- The `data_lock` mutex of the physical VMO is left out: `let _ = self.data_lock.lock()` drops the guard at the end of that statement, so the lock is taken and released at once and serializes nothing. `pmem_read`/`pmem_write` become reads and writes of the byte sequence carried with the record.
- PhysicalVmo.Read: a read that passes the wrapped bound check but leaves the window is the outcome `PastWindow` with its start address. The bytes `pmem_read` then returns from memory the VMO does not own are not modelled; the hardware abstraction layer is not part of this model.
- PhysicalVmo.Write: likewise, a write that passes the wrapped check but leaves the window is `PastWindow` with its start address. What `pmem_write` then does to memory outside the window is not modelled.
- PhysicalVmo.New: requires the window to end within the 64-bit address space. The code does not check this; its safety contract asks the caller to own that memory, and no physical memory lies beyond 2^64.
- Physical `commit`, `decommit`, `create_child`, `create_clone` and `complete_info` are `unimplemented!` (physical.rs:54-77). They appear only as the stop of the wrapper operations that reach them: `create_child` and `get_info`.
- Physical `set_len` is `unimplemented!` too, so a physical VMO's length never changes. `new_physical` still marks it resizable, so `set_len` on it stops the kernel (`Outcome.Panicked`).
- Physical `append_mapping` and `set_user_id` do nothing, so they have no model.
- The page table's `unmap_cont` is a plain map removal. Its failure to unmap, which stops the kernel, is not modelled.
- In the DDK calls: handle-table lookups, `Iommu::create`, `Bti::create`, `Bti::pin`, `encode_addrs`, writing the address array and the out handle. Their code is not shown. Lookups are inputs, and a successful validation returns what is asked of the BTI.
- The external tools of the build tasks: `wget`, `tar`, `make`, `gcc`, `cargo`, `qemu`, `qemu-img resize +5M`, `rust-objcopy` and `unzip`. Also the rcore-fs SFS packing in `fuse`, the cross toolchain setup (`riscv64_linux_musl_cross`), `rustsbi_qemu` and the `qemu` task. Download and extraction are the parameters of `Rootfs.Tools`, and packing is the packed tree.
- The download URLs. They depend on constants defined outside arch.rs.
- The helpers `dir::clear` and `dir::rm` are defined outside arch.rs. They are taken to empty/create and to remove a directory tree.
- Creating missing parent directories is not modelled.
- Following symbolic links is not modelled: every check looks at the entry at the path itself. In the code `fs::copy` copies the file a link points to.
- Rootfs.MakeRootfs: `dir.is_dir()` (xtask/src/arch.rs:52) follows links, so a link at `rootfs/<arch>` to a directory makes the code skip the rebuild; the model rebuilds.
- Rootfs.Downloaded: `tar.exists()` (xtask/src/arch.rs:266) follows links, so a dangling link at the archive path makes the code download the archive again; the model keeps the link, and extraction then fails.
- Rootfs.CopyFile: replaces whatever is at the destination, a directory included, where `fs::copy` fails on a directory destination. No copy the tasks make has a directory there unless the copied repository itself holds one at `config.mak`.
- Rootfs.CopyDir: `copy_dir` is defined outside arch.rs. It is taken to overwrite files already at the destination, and the tasks remove or clear the destination before the copy except for the oscomp copy.
- Rootfs.PutLibcTest: the steps after the copy of `config.mak` are not modelled. On riscv64 they are `make` and then the copy of `tls_align-static.exe` out of the extracted tree. On x86_64 they are the append of the musl-gcc settings to `config.mak` and then `make`. So the `config.mak` that Rootfs.LibcTestIntoSpec describes, equal to `config.mak.def`, is the file before that append.
- Rootfs.PutOtherTest: on x86_64 the test programs are compiled by gcc into `bin`. That step is not modelled, so the result is the built tree.
- Xtask.FromStr: lower-cases ASCII letters only. Rust's Unicode `to_lowercase` accepts no more names, because no other character lowercases to a character of "riscv64" or "x86_64" on its own.

=== FILE: arch.dfy ===
/** The build tasks' target architectures: parsing and printing an
    architecture name, and the directories and archive names derived from
    it. Paths are sequences of components, so `rootfs/x86_64` is
    `["rootfs", "x86_64"]`. */
module Xtask {

  datatype Arch = Riscv64 | X86_64

  /** The canonical (lower-case) name of an architecture. */
  function AsStr(a: Arch): (s: string)
    ensures s == "riscv64" <==> a == Riscv64
    ensures s == "x86_64" <==> a == X86_64
  {
    match a
    case Riscv64 => "riscv64"
    case X86_64 => "x86_64"
  }

  function LowerChar(c: char): char {
    if 'A' <= c <= 'Z' then (c as int + 32) as char else c
  }

  /** Lower-cases the ASCII letters of `s`; every other character is kept. */
  function ToLower(s: string): (t: string)
    ensures |t| == |s|
    ensures forall i :: 0 <= i < |s| ==> t[i] == LowerChar(s[i])
  {
    seq(|s|, i requires 0 <= i < |s| => LowerChar(s[i]))
  }

  /** A failure to parse a value of a named enumeration type. */
  datatype XError = EnumParse(typeName: string, value: string)

  datatype XResult<T> = Ok(value: T) | Err(error: XError)

  /** Parses an architecture name, ignoring case. Any other string is an
      `EnumParse` error that carries the type name and the string as
      given. */
  function FromStr(s: string): (r: XResult<Arch>)
    ensures r.Ok? <==> exists a :: AsStr(a) == ToLower(s)
    ensures r.Ok? ==> AsStr(r.value) == ToLower(s)
    ensures r.Err? ==> r.error == EnumParse("Arch", s)
  {
    var lower := ToLower(s);
    if lower == "riscv64" then assert AsStr(Riscv64) == lower; Ok(Riscv64)
    else if lower == "x86_64" then assert AsStr(X86_64) == lower; Ok(X86_64)
    else Err(EnumParse("Arch", s))
  }

  /** Distinct architectures have distinct names. */
  lemma AsStrInjective(a: Arch, b: Arch)
    requires AsStr(a) == AsStr(b)
    ensures a == b
  {
  }

  /** Canonical names are already lower case. */
  lemma AsStrIsLower(a: Arch)
    ensures ToLower(AsStr(a)) == AsStr(a)
  {
    var s := AsStr(a);
    assert forall i :: 0 <= i < |s| ==> !('A' <= s[i] <= 'Z');
  }

  /** Printing then parsing gives back the architecture. */
  lemma FromStrAsStr(a: Arch)
    ensures FromStr(AsStr(a)) == Ok(a)
  {
    AsStrIsLower(a);
  }

  /** Two strings that agree up to the case of their letters parse to the
      same architecture, or both fail. */
  lemma FromStrIgnoresCase(s: string, t: string)
    requires ToLower(s) == ToLower(t)
    ensures FromStr(s).Ok? <==> FromStr(t).Ok?
    ensures FromStr(s).Ok? ==> FromStr(s).value == FromStr(t).value
  {
  }

  /** Upper-case names are accepted; an unknown name is rejected with the
      string as given. */
  lemma FromStrExamples()
    ensures FromStr("RISCV64") == Ok(Riscv64)
    ensures FromStr("X86_64") == Ok(X86_64)
    ensures FromStr("aarch64") == Err(EnumParse("Arch", "aarch64"))
  {
    assert ToLower("RISCV64") == "riscv64";
    assert ToLower("X86_64") == "x86_64";
    assert ToLower("aarch64")[1] == 'a';
  }

  // ---------------------------------------------------------------------
  // Paths

  type Path = seq<string>

  /** The root file system of an architecture: `rootfs/<arch>`. */
  function Rootfs(a: Arch): (p: Path)
    ensures |p| == 2 && p[0] == "rootfs" && p[1] == AsStr(a)
  {
    ["rootfs", AsStr(a)]
  }

  /** Where the libc test suite goes: `rootfs/<arch>/libc-test`. */
  function LibcTest(a: Arch): (p: Path)
    ensures Within(p, Rootfs(a)) && p[|Rootfs(a)|..] == ["libc-test"]
  {
    Rootfs(a) + ["libc-test"]
  }

  /** Downloaded archives: `ignored/origin/<arch>`. */
  function Origin(a: Arch): (p: Path)
    ensures |p| == 3 && p[..2] == ["ignored", "origin"] && p[2] == AsStr(a)
  {
    ["ignored", "origin", AsStr(a)]
  }

  /** Extracted and built artefacts: `ignored/target/<arch>`. */
  function Target(a: Arch): (p: Path)
    ensures |p| == 3 && p[..2] == ["ignored", "target"] && p[2] == AsStr(a)
  {
    ["ignored", "target", AsStr(a)]
  }

  /** `p` is `q` or a path inside the directory `q`. */
  predicate Within(p: Path, q: Path) {
    q <= p
  }

  /** Each helper gives every architecture its own directory. */
  lemma PathsPerArch(a: Arch, b: Arch)
    requires a != b
    ensures Rootfs(a) != Rootfs(b) && LibcTest(a) != LibcTest(b)
    ensures Origin(a) != Origin(b) && Target(a) != Target(b)
  {
    assert Rootfs(a)[1] != Rootfs(b)[1];
    assert LibcTest(a)[1] != LibcTest(b)[1];
    assert Origin(a)[2] != Origin(b)[2];
  }

  /** The libc tests live inside the root file system; the root file
      systems, the archives and the extracted artefacts are separate trees,
      so no path lies in two of them. */
  lemma PathsDisjoint(a: Arch, b: Arch, p: Path)
    ensures Within(LibcTest(a), Rootfs(a))
    ensures !(Within(p, Rootfs(a)) && Within(p, Origin(b)))
    ensures !(Within(p, Rootfs(a)) && Within(p, Target(b)))
    ensures !(Within(p, Origin(a)) && Within(p, Target(b)))
  {
    if Within(p, Rootfs(a)) {
      assert p[0] == Rootfs(a)[0] == "rootfs";
    }
    if Within(p, Origin(a)) {
      assert p[0] == "ignored" && p[1] == Origin(a)[1] == "origin";
    }
    if Within(p, Origin(b)) {
      assert p[0] == Origin(b)[0] == "ignored";
    }
    if Within(p, Target(b)) {
      assert p[0] == "ignored" && p[1] == Target(b)[1] == "target";
    }
  }

  // ---------------------------------------------------------------------
  // The prebuilt root file system archive

  /** File name of the downloaded archive: xz-compressed for riscv64,
      gzip-compressed for x86_64. */
  function ArchiveName(a: Arch): string {
    match a
    case Riscv64 => "minirootfs.tar.xz"
    case X86_64 => "minirootfs.tar.gz"
  }

  /** Leading path components dropped on extraction: the riscv64 archive
      has a top-level directory, the x86_64 one does not. */
  function StripComponents(a: Arch): nat {
    match a
    case Riscv64 => 1
    case X86_64 => 0
  }

  /** Where the archive is kept: `ignored/origin/<arch>/<archive name>`. */
  function ArchivePath(a: Arch): (p: Path)
    ensures Within(p, Origin(a)) && p[|Origin(a)|..] == [ArchiveName(a)]
  {
    Origin(a) + [ArchiveName(a)]
  }

  /** Where the archive is extracted: `ignored/target/<arch>/rootfs`. */
  function ExtractDir(a: Arch): (p: Path)
    ensures Within(p, Target(a)) && p[|Target(a)|..] == ["rootfs"]
  {
    Target(a) + ["rootfs"]
  }

  /** The two archives have different names, and only the xz archive (the
      riscv64 one) loses a leading component on extraction. */
  lemma ArchiveChoice(a: Arch)
    ensures ArchiveName(Riscv64) != ArchiveName(X86_64)
    ensures |ArchiveName(a)| == 17 && ArchiveName(a)[..15] == "minirootfs.tar."
    ensures (ArchiveName(a)[15..] == "xz") <==> StripComponents(a) == 1
    ensures (ArchiveName(a)[15..] == "gz") <==> StripComponents(a) == 0
  {
    assert ArchiveName(Riscv64)[15] != ArchiveName(X86_64)[15];
  }

  /** The archive lies among the downloads and the extraction directory
      among the built artefacts of the same architecture, so neither is
      inside a root file system. */
  lemma ArchiveLocations(a: Arch, b: Arch)
    ensures Within(ArchivePath(a), Origin(a)) && Within(ExtractDir(a), Target(a))
    ensures !Within(ArchivePath(a), Rootfs(b)) && !Within(ExtractDir(a), Rootfs(b))
  {
    PathsDisjoint(b, a, ArchivePath(a));
    PathsDisjoint(b, a, ExtractDir(a));
  }
}

=== FILE: ddk.dfy ===
/** Argument validation of the device-driver system calls that create an
    IOMMU, create a bus transaction initiator (BTI) on it, and pin VMO pages
    for a device through a BTI.

    Handle-table lookups are inputs (their outcome: an error, or the object
    with the rights of the handle), and so are the properties of objects
    whose code is not part of this model (`is_valid_bus_txn_id`,
    `is_contiguous`). Each validator is a total function returning either the
    first failing check's status or what the call goes on to do. */
module Ddk {
  import opened Zircon

  const IOMMU_MAX_DESC_LEN: nat := 4096
  const IOMMU_DESC_SIZE: nat := 1

  /** Option bits of `sys_bti_pin`. */
  const PERM_READ: bv32 := 1 << 0
  const PERM_WRITE: bv32 := 1 << 1
  const PERM_EXECUTE: bv32 := 1 << 2
  const COMPRESS: bv32 := 1 << 3
  const CONTIGUOUS: bv32 := 1 << 4
  const ALL_OPTIONS: bv32 := PERM_READ | PERM_WRITE | PERM_EXECUTE | COMPRESS | CONTIGUOUS

  predicate Has(options: bv32, flag: bv32) {
    options & flag == flag
  }

  predicate SingleBit(b: bv32) {
    b != 0 && b & (b - 1) == 0
  }

  /** The option bits are five distinct single bits. */
  lemma OptionBitsDistinct()
    ensures SingleBit(PERM_READ) && SingleBit(PERM_WRITE) && SingleBit(PERM_EXECUTE)
    ensures SingleBit(COMPRESS) && SingleBit(CONTIGUOUS)
    ensures PERM_READ & PERM_WRITE == 0 && PERM_READ & PERM_EXECUTE == 0 && PERM_READ & COMPRESS == 0
    ensures PERM_READ & CONTIGUOUS == 0 && PERM_WRITE & PERM_EXECUTE == 0 && PERM_WRITE & COMPRESS == 0
    ensures PERM_WRITE & CONTIGUOUS == 0 && PERM_EXECUTE & COMPRESS == 0 && PERM_EXECUTE & CONTIGUOUS == 0
    ensures COMPRESS & CONTIGUOUS == 0
    ensures ALL_OPTIONS == 0x1f
  {
  }

  /** Options with every unknown bit dropped; the known bits are kept. */
  function FromBitsTruncate(bits: bv32): (o: bv32)
    ensures o & !ALL_OPTIONS == 0
    ensures Has(o, PERM_READ) <==> Has(bits, PERM_READ)
    ensures Has(o, PERM_WRITE) <==> Has(bits, PERM_WRITE)
    ensures Has(o, PERM_EXECUTE) <==> Has(bits, PERM_EXECUTE)
    ensures Has(o, COMPRESS) <==> Has(bits, COMPRESS)
    ensures Has(o, CONTIGUOUS) <==> Has(bits, CONTIGUOUS)
  {
    bits & ALL_OPTIONS
  }

  /** Handle rights (the subset the validators look at, and a few others). */
  datatype Right = Duplicate | Transfer | Read | Write | Execute | Map | Inspect | Signal | Wait

  /** Permissions requested from the IOMMU for pinned pages. */
  datatype IommuPerm = PermRead | PermWrite | PermExecute

  /** Outcome of a check performed by code outside this model. */
  datatype Check = Pass | Fail(error: ZxError)

  // ---------------------------------------------------------------------
  // Error precedence as a table

  /** One check of a validator: whether it fails, and the status it returns. */
  datatype Guard = Guard(fails: bool, error: ZxError)

  /** Status of the first failing check, in table order. */
  function FirstFailure(guards: seq<Guard>): (r: Option<ZxError>)
    ensures r.None? <==> forall i :: 0 <= i < |guards| ==> !guards[i].fails
    ensures r.Some? ==> exists i :: 0 <= i < |guards| && guards[i].fails && guards[i].error == r.value
                                    && forall j :: 0 <= j < i ==> !guards[j].fails
  {
    if |guards| == 0 then None
    else if guards[0].fails then Some(guards[0].error)
    else
      assert forall i :: 1 <= i < |guards| ==> guards[i] == guards[1..][i - 1];
      FirstFailure(guards[1..])
  }

  /** The check at `k` is the first that fails, so it decides the status. */
  lemma FirstFailureIs(guards: seq<Guard>, k: nat)
    requires k < |guards| && guards[k].fails
    requires forall j :: 0 <= j < k ==> !guards[j].fails
    ensures FirstFailure(guards) == Some(guards[k].error)
  {
    var r := FirstFailure(guards);
    var i :| 0 <= i < |guards| && guards[i].fails && guards[i].error == r.value
             && forall j :: 0 <= j < i ==> !guards[j].fails;
    assert !(i < k) && !(k < i);
  }

  function GuardOf(c: Check): Guard {
    match c
    case Pass => Guard(false, InvalidArgs)
    case Fail(e) => Guard(true, e)
  }

  /** Result of a validator described by its table of checks. */
  function ByTable<T>(guards: seq<Guard>, success: T): ZxResult<T> {
    match FirstFailure(guards)
    case None => Ok(success)
    case Some(e) => Err(e)
  }

  // ---------------------------------------------------------------------
  // sys_iommu_create

  /** Checks of `sys_iommu_create`: the caller's resource, then the
      descriptor size, then copying the descriptor in from user memory. On
      success, the number of descriptor bytes copied. */
  function IommuCreate(resourceCheck: Check, descSize: nat, descCopy: Check): (r: ZxResult<nat>)
    ensures r.Ok? <==> resourceCheck.Pass? && descSize == IOMMU_DESC_SIZE && descCopy.Pass?
    ensures r.Ok? ==> r.value == IOMMU_DESC_SIZE
    ensures resourceCheck.Fail? ==> r == Err(resourceCheck.error)
    ensures resourceCheck.Pass? && descSize != IOMMU_DESC_SIZE ==> r == Err(InvalidArgs)
  {
    if resourceCheck.Fail? then Err(resourceCheck.error)
    else if descSize > IOMMU_MAX_DESC_LEN then Err(InvalidArgs)
    else if descSize != IOMMU_DESC_SIZE then Err(InvalidArgs)
    else if descCopy.Fail? then Err(descCopy.error)
    else Ok(descSize)
  }

  function IommuCreateGuards(resourceCheck: Check, descSize: nat, descCopy: Check): seq<Guard> {
    [ GuardOf(resourceCheck),
      Guard(descSize > IOMMU_MAX_DESC_LEN, InvalidArgs),
      Guard(descSize != IOMMU_DESC_SIZE, InvalidArgs),
      GuardOf(descCopy) ]
  }

  lemma IommuCreateByTable(resourceCheck: Check, descSize: nat, descCopy: Check)
    ensures IommuCreate(resourceCheck, descSize, descCopy)
            == ByTable(IommuCreateGuards(resourceCheck, descSize, descCopy), descSize)
  {
    var g := IommuCreateGuards(resourceCheck, descSize, descCopy);
    if resourceCheck.Fail? {
      FirstFailureIs(g, 0);
    } else if descSize > IOMMU_MAX_DESC_LEN {
      FirstFailureIs(g, 1);
    } else if descSize != IOMMU_DESC_SIZE {
      FirstFailureIs(g, 2);
    } else if descCopy.Fail? {
      FirstFailureIs(g, 3);
    }
  }

  // ---------------------------------------------------------------------
  // sys_bti_create

  /** An IOMMU object as the BTI validator sees it. */
  datatype IommuObject = IommuObject(validBusTxnId: bool)

  /** Checks of `sys_bti_create`: options must be zero (checked before the
      IOMMU handle is looked up), the lookup must succeed, and the IOMMU must
      accept the bus transaction id. On success, the id the BTI is created
      with. */
  function BtiCreate(options: bv32, iommuLookup: ZxResult<IommuObject>, btiId: nat): (r: ZxResult<nat>)
    ensures options != 0 ==> r == Err(InvalidArgs)
    ensures options == 0 && iommuLookup.Err? ==> r == Err(iommuLookup.error)
    ensures options == 0 && iommuLookup.Ok? && !iommuLookup.value.validBusTxnId ==> r == Err(InvalidArgs)
    ensures r.Ok? <==> options == 0 && iommuLookup.Ok? && iommuLookup.value.validBusTxnId
    ensures r.Ok? ==> r.value == btiId
  {
    if options != 0 then Err(InvalidArgs)
    else
      match iommuLookup
      case Err(e) => Err(e)
      case Ok(iommu) =>
        if !iommu.validBusTxnId then Err(InvalidArgs)
        else Ok(btiId)
  }

  function BtiCreateGuards(options: bv32, iommuLookup: ZxResult<IommuObject>): seq<Guard> {
    var found := options == 0 && iommuLookup.Ok?;
    [ Guard(options != 0, InvalidArgs),
      Guard(iommuLookup.Err?, if iommuLookup.Err? then iommuLookup.error else InvalidArgs),
      Guard(found && !iommuLookup.value.validBusTxnId, InvalidArgs) ]
  }

  /** The BTI validator is its table of checks in order: options, then the
      IOMMU lookup, then the bus transaction id. */
  lemma BtiCreateByTable(options: bv32, iommuLookup: ZxResult<IommuObject>, btiId: nat)
    ensures BtiCreate(options, iommuLookup, btiId) == ByTable(BtiCreateGuards(options, iommuLookup), btiId)
  {
    var g := BtiCreateGuards(options, iommuLookup);
    if options != 0 {
      FirstFailureIs(g, 0);
    } else if iommuLookup.Err? {
      FirstFailureIs(g, 1);
    } else if !iommuLookup.value.validBusTxnId {
      FirstFailureIs(g, 2);
    }
  }

  // ---------------------------------------------------------------------
  // sys_bti_pin

  /** A VMO handle as the pin validator sees it: the handle's rights and
      whether the VMO is physically contiguous. */
  datatype VmoHandle = VmoHandle(rights: set<Right>, contiguous: bool)

  /** What a validated pin asks the BTI for. */
  datatype PinRequest = PinRequest(offset: nat, size: nat, perms: set<IommuPerm>, compress: bool, contiguous: bool)

  /** Checks of `sys_bti_pin`, in the order the code makes them: the BTI
      handle lookup (which requires MAP on it), page alignment of offset and
      size, the VMO handle lookup, MAP on the VMO handle, the rights each
      requested permission needs (READ for PERM_READ, WRITE for PERM_WRITE,
      READ for PERM_EXECUTE), then the COMPRESS/CONTIGUOUS combination and
      the contiguity of the VMO. Unknown option bits are ignored. */
  function BtiPin(btiLookup: Check, options: bv32, vmoLookup: ZxResult<VmoHandle>, offset: nat, size: nat)
    : (r: ZxResult<PinRequest>)
    ensures btiLookup.Fail? ==> r == Err(btiLookup.error)
    ensures btiLookup.Pass? && (!PageAligned(offset) || !PageAligned(size)) ==> r == Err(InvalidArgs)
    ensures r.Ok? ==> && PageAligned(offset) && PageAligned(size)
                      && r.value.offset == offset && r.value.size == size
    ensures r.Ok? ==> vmoLookup.Ok? && Map in vmoLookup.value.rights
    ensures r.Ok? ==> && (PermRead in r.value.perms <==> Has(options, PERM_READ))
                      && (PermWrite in r.value.perms <==> Has(options, PERM_WRITE))
                      && (PermExecute in r.value.perms <==> Has(options, PERM_EXECUTE))
    ensures r.Ok? ==> && (PermRead in r.value.perms ==> Read in vmoLookup.value.rights)
                      && (PermWrite in r.value.perms ==> Write in vmoLookup.value.rights)
                      && (PermExecute in r.value.perms ==> Read in vmoLookup.value.rights)
    ensures r.Ok? ==> && r.value.compress == Has(options, COMPRESS)
                      && r.value.contiguous == Has(options, CONTIGUOUS)
                      && !(r.value.compress && r.value.contiguous)
                      && (r.value.contiguous ==> vmoLookup.value.contiguous)
  {
    if btiLookup.Fail? then Err(btiLookup.error)
    else if !PageAligned(offset) || !PageAligned(size) then Err(InvalidArgs)
    else
      match vmoLookup
      case Err(e) => Err(e)
      case Ok(vmo) =>
        var rights := vmo.rights;
        if Map !in rights then Err(AccessDenied)
        else
          var opts := FromBitsTruncate(options);
          if Has(opts, PERM_READ) && Read !in rights then Err(AccessDenied)
          else if Has(opts, PERM_WRITE) && Write !in rights then Err(AccessDenied)
          else if Has(opts, PERM_EXECUTE) && Read !in rights then Err(AccessDenied)
          else if Has(opts, CONTIGUOUS) && Has(opts, COMPRESS) then Err(InvalidArgs)
          else if Has(opts, CONTIGUOUS) && !vmo.contiguous then Err(InvalidArgs)
          else
            var perms := (if Has(opts, PERM_READ) then {PermRead} else {})
                         + (if Has(opts, PERM_WRITE) then {PermWrite} else {})
                         + (if Has(opts, PERM_EXECUTE) then {PermExecute} else {});
            Ok(PinRequest(offset, size, perms, Has(opts, COMPRESS), Has(opts, CONTIGUOUS)))
  }

  /** A missing right is reported as ACCESS_DENIED whatever the
      COMPRESS/CONTIGUOUS bits say: the rights checks come first. */
  lemma PinRightsBeforeContiguity(btiLookup: Check, options: bv32, vmo: VmoHandle, offset: nat, size: nat)
    requires btiLookup.Pass? && PageAligned(offset) && PageAligned(size)
    requires || Map !in vmo.rights
             || (Has(options, PERM_READ) && Read !in vmo.rights)
             || (Has(options, PERM_WRITE) && Write !in vmo.rights)
             || (Has(options, PERM_EXECUTE) && Read !in vmo.rights)
    ensures BtiPin(btiLookup, options, Ok(vmo), offset, size) == Err(AccessDenied)
  {
  }

  /** Bits outside the five known options change nothing. */
  lemma PinIgnoresUnknownBits(btiLookup: Check, options: bv32, vmoLookup: ZxResult<VmoHandle>, offset: nat, size: nat)
    ensures BtiPin(btiLookup, options, vmoLookup, offset, size)
            == BtiPin(btiLookup, options & ALL_OPTIONS, vmoLookup, offset, size)
  {
  }

  function BtiPinGuards(btiLookup: Check, options: bv32, vmoLookup: ZxResult<VmoHandle>, offset: nat, size: nat)
    : seq<Guard>
  {
    var found := vmoLookup.Ok?;
    var rights := if found then vmoLookup.value.rights else {};
    [ GuardOf(btiLookup),
      Guard(!PageAligned(offset) || !PageAligned(size), InvalidArgs),
      Guard(vmoLookup.Err?, if vmoLookup.Err? then vmoLookup.error else InvalidArgs),
      Guard(found && Map !in rights, AccessDenied),
      Guard(found && Has(options, PERM_READ) && Read !in rights, AccessDenied),
      Guard(found && Has(options, PERM_WRITE) && Write !in rights, AccessDenied),
      Guard(found && Has(options, PERM_EXECUTE) && Read !in rights, AccessDenied),
      Guard(found && Has(options, CONTIGUOUS) && Has(options, COMPRESS), InvalidArgs),
      Guard(found && Has(options, CONTIGUOUS) && !vmoLookup.value.contiguous, InvalidArgs) ]
  }

  function RequestedPerms(options: bv32): set<IommuPerm> {
    (if Has(options, PERM_READ) then {PermRead} else {})
    + (if Has(options, PERM_WRITE) then {PermWrite} else {})
    + (if Has(options, PERM_EXECUTE) then {PermExecute} else {})
  }

  /** The pin validator is its table of checks in order; on success it asks
      for exactly the requested permissions. */
  lemma BtiPinByTable(btiLookup: Check, options: bv32, vmoLookup: ZxResult<VmoHandle>, offset: nat, size: nat)
    ensures BtiPin(btiLookup, options, vmoLookup, offset, size)
            == ByTable(BtiPinGuards(btiLookup, options, vmoLookup, offset, size),
                       PinRequest(offset, size, RequestedPerms(options), Has(options, COMPRESS), Has(options, CONTIGUOUS)))
  {
    var g := BtiPinGuards(btiLookup, options, vmoLookup, offset, size);
    if btiLookup.Fail? {
      FirstFailureIs(g, 0);
    } else if !PageAligned(offset) || !PageAligned(size) {
      FirstFailureIs(g, 1);
    } else if vmoLookup.Err? {
      FirstFailureIs(g, 2);
    } else {
      BtiPinByTableFound(btiLookup, options, vmoLookup.value, offset, size);
    }
  }

  /** The case of `BtiPinByTable` where the VMO was found. */
  lemma BtiPinByTableFound(btiLookup: Check, options: bv32, vmo: VmoHandle, offset: nat, size: nat)
    requires btiLookup.Pass? && PageAligned(offset) && PageAligned(size)
    ensures BtiPin(btiLookup, options, Ok(vmo), offset, size)
            == ByTable(BtiPinGuards(btiLookup, options, Ok(vmo), offset, size),
                       PinRequest(offset, size, RequestedPerms(options), Has(options, COMPRESS), Has(options, CONTIGUOUS)))
  {
    var g := BtiPinGuards(btiLookup, options, Ok(vmo), offset, size);
    var rights := vmo.rights;
    if Map !in rights {
      FirstFailureIs(g, 3);
    } else if Has(options, PERM_READ) && Read !in rights {
      FirstFailureIs(g, 4);
    } else if Has(options, PERM_WRITE) && Write !in rights {
      FirstFailureIs(g, 5);
    } else if Has(options, PERM_EXECUTE) && Read !in rights {
      FirstFailureIs(g, 6);
    } else if Has(options, CONTIGUOUS) && Has(options, COMPRESS) {
      FirstFailureIs(g, 7);
    } else if Has(options, CONTIGUOUS) && !vmo.contiguous {
      FirstFailureIs(g, 8);
    }
  }
}

=== FILE: elf_loader.dfy ===
/** ELF loading arithmetic and x86-64 dynamic relocation of the Linux loader.

    The parsed ELF file is an abstract value: program headers, sections and
    the symbol tables they hold. Raw pointer stores made while relocating
    become updates of an abstract memory from addresses to 64-bit words. */
module ElfLoader {
  import opened Zircon

  // ---------------------------------------------------------------------
  // Program headers and MMU flags

  datatype SegmentType = Load | Dynamic | Interp | Note | Phdr | Tls | OtherSegment(code: nat)

  /** Segment permission bits of an ELF program header (System V gABI,
      "Segment Permissions"). */
  const PF_X: bv32 := 1
  const PF_W: bv32 := 2
  const PF_R: bv32 := 4

  /** Payload of a segment as the ELF reader presents it: raw bytes
      (`Undefined`) or a structured view (dynamic table, notes, ...). */
  datatype SegmentData = Undefined(bytes: seq<byte>) | Structured

  datatype ProgramHeader = ProgramHeader(
    ptype: SegmentType,
    vaddr: nat,
    memSize: nat,
    flags: bv32,
    data: SegmentData)

  predicate IsLoad(ph: ProgramHeader) {
    ph.ptype == Load
  }

  /** First address past the segment in memory. */
  function SegmentEnd(ph: ProgramHeader): nat {
    ph.vaddr + ph.memSize
  }

  predicate HasLoad(phs: seq<ProgramHeader>) {
    exists i :: 0 <= i < |phs| && IsLoad(phs[i])
  }

  datatype MmuFlag = Read | Write | Execute

  /** MMU flags for a segment: one flag per permission bit and nothing else. */
  function ToMmuFlags(f: bv32): (r: set<MmuFlag>)
    ensures Read in r <==> f & PF_R != 0
    ensures Write in r <==> f & PF_W != 0
    ensures Execute in r <==> f & PF_X != 0
  {
    (if f & PF_R != 0 then {Read} else {})
    + (if f & PF_W != 0 then {Write} else {})
    + (if f & PF_X != 0 then {Execute} else {})
  }

  /** The segment permission bits a set of MMU flags stands for. */
  function PermissionBits(s: set<MmuFlag>): (f: bv32)
    ensures f & !(PF_R | PF_W | PF_X) == 0
  {
    (if Read in s then PF_R else 0)
    | (if Write in s then PF_W else 0)
    | (if Execute in s then PF_X else 0)
  }

  /** ToMmuFlags loses exactly the bits that are not permission bits, and
      every set of MMU flags is the image of some segment flags. */
  lemma MmuFlagsRoundTrip(f: bv32, s: set<MmuFlag>)
    ensures PermissionBits(ToMmuFlags(f)) == f & (PF_R | PF_W | PF_X)
    ensures ToMmuFlags(PermissionBits(s)) == s
  {
    var t := ToMmuFlags(PermissionBits(s));
    forall m | true
      ensures m in t <==> m in s
    {
      match m
      case Read =>
      case Write =>
      case Execute =>
    }
  }

  // ---------------------------------------------------------------------
  // Size of the LOAD footprint

  /** Largest page count, over the LOAD headers, needed to reach the end of
      a segment (0 when there is no LOAD header). */
  function MaxLoadPages(phs: seq<ProgramHeader>): (m: nat)
    ensures forall i :: 0 <= i < |phs| && IsLoad(phs[i]) ==> Pages(SegmentEnd(phs[i])) <= m
    ensures HasLoad(phs) ==> exists i :: 0 <= i < |phs| && IsLoad(phs[i]) && m == Pages(SegmentEnd(phs[i]))
    ensures !HasLoad(phs) ==> m == 0
  {
    if |phs| == 0 then 0
    else
      var rest := MaxLoadPages(phs[1..]);
      assert forall i :: 1 <= i < |phs| ==> phs[i] == phs[1..][i - 1];
      if IsLoad(phs[0]) && Pages(SegmentEnd(phs[0])) >= rest then Pages(SegmentEnd(phs[0]))
      else rest
  }

  /** Bytes of address space the LOAD segments need: a whole number of
      pages, enough to reach the end of every LOAD segment, and less than a
      page beyond the end of the furthest one. The code unwraps the maximum
      of an empty iterator when there is no LOAD header. */
  function LoadSegmentSize(phs: seq<ProgramHeader>): (size: nat)
    requires HasLoad(phs)
    ensures PageAligned(size)
    ensures forall i :: 0 <= i < |phs| && IsLoad(phs[i]) ==> SegmentEnd(phs[i]) <= size
    ensures exists i :: 0 <= i < |phs| && IsLoad(phs[i]) && size < SegmentEnd(phs[i]) + PAGE_SIZE
  {
    MaxLoadPages(phs) * PAGE_SIZE
  }

  // ---------------------------------------------------------------------
  // Sections and symbols

  datatype Symbol = Symbol(name: string, value: nat)

  /** Dynamic symbol; `shndx == 0` marks a symbol the file does not define. */
  datatype DynSymbol = DynSymbol(name: string, value: nat, shndx: nat)

  /** RELA entry: `info` packs the symbol index (high 32 bits) and the
      relocation type (low 32 bits); `addend` is a signed 64-bit value. */
  datatype Rela = Rela(offset: nat, info: nat, addend: int)

  /** Section payload as the ELF reader decodes it; `Unreadable` stands for
      a payload the reader rejects. */
  datatype SectionData =
    | SymbolTable64(entries: seq<Symbol>)
    | DynSymbolTable64(dynEntries: seq<DynSymbol>)
    | Rela64(relas: seq<Rela>)
    | OtherData
    | Unreadable

  datatype Section = Section(name: string, data: SectionData)

  datatype ElfHeader = ElfHeader(entryPoint: nat, phOffset: nat, phEntrySize: nat, phCount: nat)

  datatype ElfFile = ElfFile(header: ElfHeader, programHeaders: seq<ProgramHeader>, sections: seq<Section>)

  /** Outcome of a symbol lookup; `DataUnreadable` is the stop on unwrapping
      a section payload the reader rejects. */
  datatype Lookup = Found(value: nat) | NotFound | DataUnreadable

  function TableEntries(s: Section): seq<Symbol> {
    if s.data.SymbolTable64? then s.data.entries else []
  }

  /** Entries of all static symbol tables, in section order and then entry
      order. */
  function AllSymbols(sections: seq<Section>): seq<Symbol> {
    if |sections| == 0 then []
    else AllSymbols(sections[..|sections| - 1]) + TableEntries(sections[|sections| - 1])
  }

  predicate Readable(sections: seq<Section>) {
    forall i :: 0 <= i < |sections| ==> !sections[i].data.Unreadable?
  }

  /** Value of the first symbol called `name`. */
  function FirstNamed(syms: seq<Symbol>, name: string): (r: Lookup)
    ensures !r.DataUnreadable?
    ensures r.NotFound? <==> forall k :: 0 <= k < |syms| ==> syms[k].name != name
    ensures r.Found? ==> exists k :: 0 <= k < |syms| && syms[k].name == name && syms[k].value == r.value
                                     && forall j :: 0 <= j < k ==> syms[j].name != name
  {
    if |syms| == 0 then NotFound
    else if syms[0].name == name then Found(syms[0].value)
    else
      var r := FirstNamed(syms[1..], name);
      assert forall k :: 1 <= k < |syms| ==> syms[k] == syms[1..][k - 1];
      r
  }

  lemma {:induction false} AllSymbolsAppend(a: seq<Section>, b: seq<Section>)
    ensures AllSymbols(a + b) == AllSymbols(a) + AllSymbols(b)
    decreases |b|
  {
    if |b| == 0 {
      assert a + b == a;
    } else {
      var b' := b[..|b| - 1];
      assert (a + b)[..|a + b| - 1] == a + b';
      AllSymbolsAppend(a, b');
    }
  }

  /** The first entry called `name` at position `p` determines the lookup. */
  lemma FirstNamedAt(syms: seq<Symbol>, name: string, p: nat)
    requires p < |syms| && syms[p].name == name
    requires forall k :: 0 <= k < p ==> syms[k].name != name
    ensures FirstNamed(syms, name) == Found(syms[p].value)
  {
  }

  lemma AllSymbolsStep(sections: seq<Section>, i: nat)
    requires i < |sections|
    ensures AllSymbols(sections[..i + 1]) == AllSymbols(sections[..i]) + TableEntries(sections[i])
  {
    assert sections[..i + 1][..i] == sections[..i];
  }

  /** A match at entry `j` of table `i`, with no match earlier, is the
      answer of the lookup over all symbol tables. */
  lemma FoundInSection(sections: seq<Section>, i: nat, j: nat, symbol: string)
    requires i < |sections| && sections[i].data.SymbolTable64?
    requires j < |sections[i].data.entries| && sections[i].data.entries[j].name == symbol
    requires forall k :: 0 <= k < j ==> sections[i].data.entries[k].name != symbol
    requires forall k :: 0 <= k < |AllSymbols(sections[..i])| ==> AllSymbols(sections[..i])[k].name != symbol
    ensures FirstNamed(AllSymbols(sections), symbol) == Found(sections[i].data.entries[j].value)
  {
    var entries := sections[i].data.entries;
    var before := AllSymbols(sections[..i]);
    AllSymbolsStep(sections, i);
    var prefix := AllSymbols(sections[..i + 1]);
    AllSymbolsAppend(sections[..i + 1], sections[i + 1..]);
    assert sections[..i + 1] + sections[i + 1..] == sections;
    var all := AllSymbols(sections);
    var p := |before| + j;
    assert all[p] == prefix[p] == entries[j];
    assert forall k :: 0 <= k < p ==> all[k] == prefix[k];
    FirstNamedAt(all, symbol, p);
  }

  /** The sections before the first one whose payload cannot be read (all
      of them when every payload can be read). */
  function ReadablePrefix(sections: seq<Section>): (p: seq<Section>)
    ensures p <= sections && Readable(p)
    ensures |p| < |sections| ==> sections[|p|].data.Unreadable?
  {
    if |sections| == 0 || sections[0].data.Unreadable? then []
    else
      var rest := ReadablePrefix(sections[1..]);
      assert forall k :: 1 <= k < |sections| ==> sections[k] == sections[1..][k - 1];
      [sections[0]] + rest
  }

  /** A readable prefix followed by an unreadable section (or by nothing)
      is the readable prefix. */
  lemma {:induction false} ReadablePrefixIs(sections: seq<Section>, i: nat)
    requires i <= |sections| && Readable(sections[..i])
    requires i < |sections| ==> sections[i].data.Unreadable?
    ensures ReadablePrefix(sections) == sections[..i]
  {
    if i > 0 {
      assert sections[..i][0] == sections[0];
      var rest := sections[1..];
      assert rest[..i - 1] == sections[1..i];
      var head := sections[..i];
      var q := rest[..i - 1];
      assert forall k :: 0 <= k < |q| ==> q[k] == head[k + 1];
      ReadablePrefixIs(rest, i - 1);
      assert sections[..i] == [sections[0]] + rest[..i - 1];
    }
  }

  /** Address of `symbol`: the value of the first entry with that name in the
      static symbol tables, scanning sections in order and entries in order.
      A section whose payload cannot be read, met before a match, stops the
      lookup; a match in an earlier section is still returned. */
  method GetSymbolAddress(elf: ElfFile, symbol: string) returns (r: Lookup)
    ensures Readable(elf.sections) ==> r == FirstNamed(AllSymbols(elf.sections), symbol)
    ensures r.DataUnreadable? <==> |ReadablePrefix(elf.sections)| < |elf.sections|
                                   && FirstNamed(AllSymbols(ReadablePrefix(elf.sections)), symbol).NotFound?
    ensures !r.DataUnreadable? ==> r == FirstNamed(AllSymbols(ReadablePrefix(elf.sections)), symbol)
  {
    var sections := elf.sections;
    var i := 0;
    while i < |sections|
      invariant 0 <= i <= |sections|
      invariant Readable(sections[..i])
      invariant forall k :: 0 <= k < |AllSymbols(sections[..i])| ==> AllSymbols(sections[..i])[k].name != symbol
    {
      AllSymbolsStep(sections, i);
      match sections[i].data {
        case Unreadable =>
          ReadablePrefixIs(sections, i);
          return DataUnreadable;
        case SymbolTable64(entries) =>
          var j := 0;
          while j < |entries|
            invariant 0 <= j <= |entries|
            invariant forall k :: 0 <= k < j ==> entries[k].name != symbol
          {
            if entries[j].name == symbol {
              FoundInSection(sections, i, j, symbol);
              FoundBeforeUnreadable(sections, i, j, symbol);
              return Found(entries[j].value);
            }
            j := j + 1;
          }
        case _ =>
      }
      assert sections[..i + 1][..i] == sections[..i];
      i := i + 1;
    }
    assert sections[..i] == sections;
    ReadablePrefixIs(sections, i);
    return NotFound;
  }

  /** A match in a readable section, with none earlier, is also the answer
      over the readable prefix. */
  lemma FoundBeforeUnreadable(sections: seq<Section>, i: nat, j: nat, symbol: string)
    requires i < |sections| && sections[i].data.SymbolTable64? && Readable(sections[..i])
    requires j < |sections[i].data.entries| && sections[i].data.entries[j].name == symbol
    requires forall k :: 0 <= k < j ==> sections[i].data.entries[k].name != symbol
    requires forall k :: 0 <= k < |AllSymbols(sections[..i])| ==> AllSymbols(sections[..i])[k].name != symbol
    ensures FirstNamed(AllSymbols(ReadablePrefix(sections)), symbol) == Found(sections[i].data.entries[j].value)
  {
    var p := ReadablePrefix(sections);
    assert p[i] == sections[i] && p[..i] == sections[..i];
    FoundInSection(p, i, j, symbol);
  }

  /** Index of the first section called `name`. */
  function FindSection(sections: seq<Section>, name: string): (r: Option<nat>)
    ensures r.None? <==> forall i :: 0 <= i < |sections| ==> sections[i].name != name
    ensures r.Some? ==> r.value < |sections| && sections[r.value].name == name
                        && forall i :: 0 <= i < r.value ==> sections[i].name != name
  {
    if |sections| == 0 then None
    else if sections[0].name == name then Some(0)
    else
      assert forall i :: 1 <= i < |sections| ==> sections[i] == sections[1..][i - 1];
      match FindSection(sections[1..], name)
      case None => None
      case Some(i) => Some(i + 1)
  }

  /** A value or the message of the error string the loader reports. */
  datatype Fallible<T> = Fine(value: T) | Fault(msg: string)

  /** The dynamic symbol table: the payload of the first `.dynsym` section,
      which must be readable and a dynamic symbol table. */
  function DynSym(elf: ElfFile): (r: Fallible<seq<DynSymbol>>)
    ensures FindSection(elf.sections, ".dynsym").None? <==> r == Fault(".dynsym not found")
    ensures r.Fine? <==> (FindSection(elf.sections, ".dynsym").Some?
                          && elf.sections[FindSection(elf.sections, ".dynsym").value].data.DynSymbolTable64?)
    ensures r.Fine? ==> r.value == elf.sections[FindSection(elf.sections, ".dynsym").value].data.dynEntries
    ensures (&& FindSection(elf.sections, ".dynsym").Some?
             && elf.sections[FindSection(elf.sections, ".dynsym").value].data.Unreadable?)
            ==> r == Fault("corrupted .dynsym")
    ensures (&& FindSection(elf.sections, ".dynsym").Some?
             && !elf.sections[FindSection(elf.sections, ".dynsym").value].data.Unreadable?
             && r.Fault?)
            ==> r == Fault("bad .dynsym")
  {
    match FindSection(elf.sections, ".dynsym")
    case None => Fault(".dynsym not found")
    case Some(i) =>
      match elf.sections[i].data
      case Unreadable => Fault("corrupted .dynsym")
      case DynSymbolTable64(syms) => Fine(syms)
      case _ => Fault("bad .dynsym")
  }

  /** The relocation entries: the payload of the first `.rela.dyn` section,
      which must be readable and a RELA table. */
  function RelaDyn(elf: ElfFile): (r: Fallible<seq<Rela>>)
    ensures FindSection(elf.sections, ".rela.dyn").None? <==> r == Fault(".rela.dyn not found")
    ensures r.Fine? <==> (FindSection(elf.sections, ".rela.dyn").Some?
                          && elf.sections[FindSection(elf.sections, ".rela.dyn").value].data.Rela64?)
    ensures r.Fine? ==> r.value == elf.sections[FindSection(elf.sections, ".rela.dyn").value].data.relas
    ensures (&& FindSection(elf.sections, ".rela.dyn").Some?
             && elf.sections[FindSection(elf.sections, ".rela.dyn").value].data.Unreadable?)
            ==> r == Fault("corrupted .rela.dyn")
    ensures (&& FindSection(elf.sections, ".rela.dyn").Some?
             && !elf.sections[FindSection(elf.sections, ".rela.dyn").value].data.Unreadable?
             && r.Fault?)
            ==> r == Fault("bad .rela.dyn")
  {
    match FindSection(elf.sections, ".rela.dyn")
    case None => Fault(".rela.dyn not found")
    case Some(i) =>
      match elf.sections[i].data
      case Unreadable => Fault("corrupted .rela.dyn")
      case Rela64(entries) => Fine(entries)
      case _ => Fault("bad .rela.dyn")
  }

  // ---------------------------------------------------------------------
  // Relocation

  /** x86-64 relocation types handled (System V AMD64 psABI, section 4.4,
      relocation types table). */
  const R_X86_64_GLOB_DAT: nat := 6
  const R_X86_64_JUMP_SLOT: nat := 7
  const R_X86_64_RELATIVE: nat := 8

  const INFO_SPLIT: nat := 0x1_0000_0000

  function RelaType(e: Rela): nat {
    e.info % INFO_SPLIT
  }

  function RelaSymbol(e: Rela): nat {
    e.info / INFO_SPLIT
  }

  /** Packs a symbol index and a relocation type into an `info` field. */
  function RelaInfo(sym: nat, rtype: nat): (info: nat)
    requires rtype < INFO_SPLIT
    ensures RelaType(Rela(0, info, 0)) == rtype
    ensures RelaSymbol(Rela(0, info, 0)) == sym
  {
    sym * INFO_SPLIT + rtype
  }

  /** Abstract memory: 64-bit words by address. */
  type Memory = map<nat, nat>

  /** Why relocation stops the process: an out-of-range symbol index, a
      symbol the file does not define, or a type the loader does not know. */
  datatype Fatal = SymbolIndexOutOfBounds(index: nat) | UndefinedSymbol(name: string) | UnknownType(rtype: nat)

  datatype RelocOutcome = Relocated(mem: Memory) | Failed(msg: string) | Aborted(fatal: Fatal)

  /** Address an entry writes: the load base plus the entry offset. */
  function Target(base: nat, e: Rela): nat {
    Wrap(base + e.offset)
  }

  predicate IsSymbolic(e: Rela) {
    RelaType(e) == R_X86_64_GLOB_DAT || RelaType(e) == R_X86_64_JUMP_SLOT
  }

  /** The entry can be applied without stopping the process. */
  predicate Resolvable(e: Rela, dynsym: seq<DynSymbol>) {
    || RelaType(e) == R_X86_64_RELATIVE
    || (IsSymbolic(e) && RelaSymbol(e) < |dynsym| && dynsym[RelaSymbol(e)].shndx != 0)
  }

  /** Word a resolvable entry stores: base + addend for RELATIVE, and
      base + symbol value + addend for GLOB_DAT and JUMP_SLOT. */
  function EntryValue(base: nat, dynsym: seq<DynSymbol>, e: Rela): nat
    requires Resolvable(e, dynsym)
  {
    if RelaType(e) == R_X86_64_RELATIVE then Wrap(base + e.addend)
    else Wrap(base + dynsym[RelaSymbol(e)].value + e.addend)
  }

  /** Applies one relocation entry. */
  function ApplyEntry(mem: Memory, base: nat, dynsym: seq<DynSymbol>, e: Rela): (r: RelocOutcome)
    ensures !r.Failed?
    ensures r.Relocated? <==> Resolvable(e, dynsym)
    ensures RelaType(e) == R_X86_64_RELATIVE ==>
              r == Relocated(mem[Target(base, e) := Wrap(base + e.addend)])
    ensures (IsSymbolic(e) && RelaSymbol(e) < |dynsym| && dynsym[RelaSymbol(e)].shndx != 0) ==>
              r == Relocated(mem[Target(base, e) := Wrap(base + dynsym[RelaSymbol(e)].value + e.addend)])
    ensures (IsSymbolic(e) && RelaSymbol(e) < |dynsym| && dynsym[RelaSymbol(e)].shndx == 0) ==>
              r == Aborted(UndefinedSymbol(dynsym[RelaSymbol(e)].name))
    ensures !IsSymbolic(e) && RelaType(e) != R_X86_64_RELATIVE ==> r == Aborted(UnknownType(RelaType(e)))
  {
    var t := RelaType(e);
    if t == R_X86_64_GLOB_DAT || t == R_X86_64_JUMP_SLOT then
      var idx := RelaSymbol(e);
      if idx >= |dynsym| then Aborted(SymbolIndexOutOfBounds(idx))
      else if dynsym[idx].shndx == 0 then Aborted(UndefinedSymbol(dynsym[idx].name))
      else
        var symval := base + dynsym[idx].value;
        Relocated(mem[Target(base, e) := Wrap(symval + e.addend)])
    else if t == R_X86_64_RELATIVE then
      Relocated(mem[Target(base, e) := Wrap(base + e.addend)])
    else
      Aborted(UnknownType(t))
  }

  /** Applies the entries in order, stopping at the first one that aborts. */
  function ApplyAll(mem: Memory, base: nat, dynsym: seq<DynSymbol>, entries: seq<Rela>): (r: RelocOutcome)
    ensures !r.Failed?
    ensures r.Relocated? <==> forall k :: 0 <= k < |entries| ==> Resolvable(entries[k], dynsym)
    decreases |entries|
  {
    if |entries| == 0 then Relocated(mem)
    else
      assert forall k :: 1 <= k < |entries| ==> entries[k] == entries[1..][k - 1];
      var first := ApplyEntry(mem, base, dynsym, entries[0]);
      if first.Relocated? then ApplyAll(first.mem, base, dynsym, entries[1..]) else first
  }

  /** The entry written last to an address. */
  predicate LastTargeting(base: nat, entries: seq<Rela>, k: int) {
    && 0 <= k < |entries|
    && forall j :: k < j < |entries| ==> Target(base, entries[j]) != Target(base, entries[k])
  }

  predicate Untargeted(base: nat, entries: seq<Rela>, a: nat) {
    forall k :: 0 <= k < |entries| ==> Target(base, entries[k]) != a
  }

  /** A successful run of the entries leaves every address no entry targets
      as it was. */
  lemma {:induction false} RelocationKeepsOthers(mem: Memory, base: nat, dynsym: seq<DynSymbol>, entries: seq<Rela>, a: nat)
    requires ApplyAll(mem, base, dynsym, entries).Relocated?
    requires Untargeted(base, entries, a)
    ensures a in ApplyAll(mem, base, dynsym, entries).mem <==> a in mem
    ensures a in mem ==> ApplyAll(mem, base, dynsym, entries).mem[a] == mem[a]
    decreases |entries|
  {
    if |entries| > 0 {
      var e := entries[0];
      var rest := entries[1..];
      assert Target(base, e) != a;
      assert forall k :: 0 <= k < |rest| ==> rest[k] == entries[k + 1];
      var m1 := mem[Target(base, e) := EntryValue(base, dynsym, e)];
      assert ApplyAll(mem, base, dynsym, entries) == ApplyAll(m1, base, dynsym, rest);
      RelocationKeepsOthers(m1, base, dynsym, rest, a);
    }
  }

  /** After a successful run, each targeted address holds the value of the
      LAST entry targeting it. */
  lemma {:induction false} RelocationLastWins(mem: Memory, base: nat, dynsym: seq<DynSymbol>, entries: seq<Rela>, k: nat)
    requires ApplyAll(mem, base, dynsym, entries).Relocated?
    requires LastTargeting(base, entries, k)
    ensures Resolvable(entries[k], dynsym)
    ensures Target(base, entries[k]) in ApplyAll(mem, base, dynsym, entries).mem
    ensures ApplyAll(mem, base, dynsym, entries).mem[Target(base, entries[k])] == EntryValue(base, dynsym, entries[k])
    decreases |entries|
  {
    var e := entries[0];
    var rest := entries[1..];
    assert forall j :: 0 <= j < |rest| ==> rest[j] == entries[j + 1];
    var m1 := mem[Target(base, e) := EntryValue(base, dynsym, e)];
    assert ApplyAll(mem, base, dynsym, entries) == ApplyAll(m1, base, dynsym, rest);
    if k == 0 {
      assert Untargeted(base, rest, Target(base, e));
      RelocationKeepsOthers(m1, base, dynsym, rest, Target(base, e));
    } else {
      assert LastTargeting(base, rest, k - 1);
      RelocationLastWins(m1, base, dynsym, rest, k - 1);
    }
  }

  /** Applies the dynamic relocations of `elf` for an image loaded at
      `base`. Table lookup errors are reported before any word is written:
      first those of `.rela.dyn`, then those of `.dynsym`. */
  function Relocate(elf: ElfFile, base: nat, mem: Memory): (r: RelocOutcome)
    ensures RelaDyn(elf).Fault? ==> r == Failed(RelaDyn(elf).msg)
    ensures RelaDyn(elf).Fine? && DynSym(elf).Fault? ==> r == Failed(DynSym(elf).msg)
    ensures r.Failed? <==> RelaDyn(elf).Fault? || DynSym(elf).Fault?
    ensures r.Relocated? ==> RelaDyn(elf).Fine? && DynSym(elf).Fine?
                             && forall k :: 0 <= k < |RelaDyn(elf).value| ==> Resolvable(RelaDyn(elf).value[k], DynSym(elf).value)
    ensures RelaDyn(elf).Fine? && DynSym(elf).Fine? ==> r == ApplyAll(mem, base, DynSym(elf).value, RelaDyn(elf).value)
  {
    match RelaDyn(elf)
    case Fault(msg) => Failed(msg)
    case Fine(entries) =>
      match DynSym(elf)
      case Fault(msg) => Failed(msg)
      case Fine(dynsym) => ApplyAll(mem, base, dynsym, entries)
  }

  /** A relocation table of RELATIVE entries only, with distinct targets,
      stores base + addend at base + offset for every entry. */
  lemma RelativeRelocation(elf: ElfFile, base: nat, mem: Memory)
    requires RelaDyn(elf).Fine? && DynSym(elf).Fine?
    requires forall k :: 0 <= k < |RelaDyn(elf).value| ==> RelaType(RelaDyn(elf).value[k]) == R_X86_64_RELATIVE
    requires forall j, k :: 0 <= j < k < |RelaDyn(elf).value| ==>
               Target(base, RelaDyn(elf).value[j]) != Target(base, RelaDyn(elf).value[k])
    ensures Relocate(elf, base, mem).Relocated?
    ensures forall k :: 0 <= k < |RelaDyn(elf).value| ==>
              var e := RelaDyn(elf).value[k];
              Wrap(base + e.offset) in Relocate(elf, base, mem).mem
              && Relocate(elf, base, mem).mem[Wrap(base + e.offset)] == Wrap(base + e.addend)
  {
    var entries := RelaDyn(elf).value;
    forall k | 0 <= k < |entries|
      ensures Wrap(base + entries[k].offset) in Relocate(elf, base, mem).mem
      ensures Relocate(elf, base, mem).mem[Wrap(base + entries[k].offset)] == Wrap(base + entries[k].addend)
    {
      assert LastTargeting(base, entries, k);
      RelocationLastWins(mem, base, DynSym(elf).value, entries, k);
    }
  }

  // ---------------------------------------------------------------------
  // Building VMOs from LOAD segments

  /** The raw bytes of a segment fit in its memory size (p_filesz <= p_memsz,
      as the System V gABI requires of LOAD segments). */
  predicate DataFits(ph: ProgramHeader) {
    ph.data.Undefined? ==> |ph.data.bytes| <= ph.memSize
  }

  /** Contents of the VMO backing one LOAD segment: whole pages covering the
      segment from the start of its first page, holding the segment bytes at
      the segment's offset within that page and zeros elsewhere. A segment
      whose payload is not raw bytes is refused with INVALID_ARGS. */
  function MakeVmo(ph: ProgramHeader): (r: ZxResult<seq<byte>>)
    requires IsLoad(ph)
    requires DataFits(ph)
    ensures r.Err? <==> !ph.data.Undefined?
    ensures r.Err? ==> r.error == InvalidArgs
  {
    var pageOffset := ph.vaddr % PAGE_SIZE;
    var vmo := Zeros(Pages(ph.memSize + pageOffset) * PAGE_SIZE);
    match ph.data
    case Undefined(bytes) => Ok(WriteAt(vmo, pageOffset, bytes))
    case Structured => Err(InvalidArgs)
  }

  /** The VMO of a segment with raw bytes spans pages(memsz + vaddr mod
      PAGE_SIZE) whole pages and holds the bytes at the in-page offset and
      zeros everywhere else. */
  lemma MakeVmoLayout(ph: ProgramHeader)
    requires IsLoad(ph) && DataFits(ph) && ph.data.Undefined?
    ensures |MakeVmo(ph).value| == Pages(ph.memSize + ph.vaddr % PAGE_SIZE) * PAGE_SIZE
    ensures forall i :: 0 <= i < |MakeVmo(ph).value| ==>
              MakeVmo(ph).value[i] == (if ph.vaddr % PAGE_SIZE <= i < ph.vaddr % PAGE_SIZE + |ph.data.bytes|
                                       then ph.data.bytes[i - ph.vaddr % PAGE_SIZE] else 0)
  {
    var pageOffset := ph.vaddr % PAGE_SIZE;
    var z := Zeros(Pages(ph.memSize + pageOffset) * PAGE_SIZE);
    assert MakeVmo(ph).value == WriteAt(z, pageOffset, ph.data.bytes);
  }

  /** One mapping made into the address region. */
  datatype Mapping = Mapping(addr: nat, vmo: seq<byte>, len: nat, flags: set<MmuFlag>)

  predicate LoadsFit(phs: seq<ProgramHeader>) {
    forall i :: 0 <= i < |phs| && IsLoad(phs[i]) ==> DataFits(phs[i])
  }

  /** The LOAD headers, in order. */
  function Loads(phs: seq<ProgramHeader>): (l: seq<ProgramHeader>)
    ensures forall x :: x in l <==> x in phs && IsLoad(x)
    ensures |l| <= |phs|
  {
    if |phs| == 0 then []
    else
      assert forall i :: 1 <= i < |phs| ==> phs[i] == phs[1..][i - 1];
      (if IsLoad(phs[0]) then [phs[0]] else []) + Loads(phs[1..])
  }

  /** There are LOAD headers exactly when some header is a LOAD header,
      and the first of them is the first LOAD header of the file. */
  lemma {:induction false} LoadsFirst(phs: seq<ProgramHeader>)
    ensures |Loads(phs)| == 0 <==> !HasLoad(phs)
    ensures |Loads(phs)| > 0 ==> Loads(phs)[0] == phs[FirstLoad(phs)]
  {
    if |phs| > 0 {
      var l := Loads(phs);
      if HasLoad(phs) {
        assert phs[FirstLoad(phs)] in l;
      }
      if !IsLoad(phs[0]) && |l| > 0 {
        var rest := phs[1..];
        assert l == Loads(rest);
        LoadsFirst(rest);
        assert rest[FirstLoad(rest)] in rest;
        assert HasLoad(rest);
        assert FirstLoad(phs) == FirstLoad(rest) + 1;
      }
    }
  }

  /** Position of the first LOAD header. */
  function FirstLoad(phs: seq<ProgramHeader>): (i: nat)
    requires HasLoad(phs)
    ensures i < |phs| && IsLoad(phs[i])
    ensures forall j :: 0 <= j < i ==> !IsLoad(phs[j])
  {
    if IsLoad(phs[0]) then 0
    else
      assert forall i :: 1 <= i < |phs| ==> phs[i] == phs[1..][i - 1];
      FirstLoad(phs[1..]) + 1
  }

  /** Loads keeps the file's order and each header once: the LOAD headers
      of a concatenation are those of the first part, then those of the
      second. */
  lemma {:induction false} LoadsAppend(a: seq<ProgramHeader>, b: seq<ProgramHeader>)
    ensures Loads(a + b) == Loads(a) + Loads(b)
  {
    if |a| == 0 {
      assert a + b == b;
    } else {
      var head := if IsLoad(a[0]) then [a[0]] else [];
      assert (a + b)[0] == a[0];
      assert (a + b)[1..] == a[1..] + b;
      assert Loads(a + b) == head + Loads(a[1..] + b);
      assert Loads(a) == head + Loads(a[1..]);
      LoadsAppend(a[1..], b);
      assert head + (Loads(a[1..]) + Loads(b)) == (head + Loads(a[1..])) + Loads(b);
    }
  }

  /** A single header is kept, once, exactly when it is a LOAD header. With
      LoadsAppend this fixes Loads completely: every header of the file
      contributes itself once if it is a LOAD header and nothing otherwise,
      in file order. */
  lemma LoadsOne(h: ProgramHeader)
    ensures Loads([h]) == if IsLoad(h) then [h] else []
  {
    assert [h][1..] == [];
  }

  /** Each LOAD header appears in Loads as often as in the file. */
  lemma {:induction false} LoadsCount(phs: seq<ProgramHeader>, h: ProgramHeader)
    requires IsLoad(h)
    ensures multiset(Loads(phs))[h] == multiset(phs)[h]
  {
    if |phs| > 0 {
      assert phs == [phs[0]] + phs[1..];
      LoadsAppend([phs[0]], phs[1..]);
      LoadsOne(phs[0]);
      LoadsCount(phs[1..], h);
    }
  }

  /** `m` is the mapping the loader makes for LOAD header `ph`: the VMO built
      for it, mapped whole at the segment address rounded down to a page,
      with the segment's MMU flags. */
  predicate MapsSegment(ph: ProgramHeader, m: Mapping) {
    && IsLoad(ph)
    && DataFits(ph)
    && MakeVmo(ph) == Ok(m.vmo)
    && m.addr == RoundDown(ph.vaddr)
    && m.len == |m.vmo|
    && m.flags == ToMmuFlags(ph.flags)
  }

  /** Some LOAD header has a payload that is not raw bytes. */
  predicate HasStructuredLoad(phs: seq<ProgramHeader>) {
    exists i :: 0 <= i < |phs| && IsLoad(phs[i]) && !phs[i].data.Undefined?
  }

  /** Segments that are all LOAD segments whose bytes fit. */
  predicate AllLoadsFit(loads: seq<ProgramHeader>) {
    forall k :: 0 <= k < |loads| ==> IsLoad(loads[k]) && DataFits(loads[k])
  }

  /** What the loop leaves: the mappings made so far, in order, and the
      error it stopped with, if any. */
  datatype Mapped = Mapped(mappings: seq<Mapping>, error: Option<ZxError>)

  /** Builds the VMO of each LOAD segment and maps it, in order; stops at
      the first segment whose VMO cannot be built, with the earlier
      segments already mapped. */
  function MapSegments(loads: seq<ProgramHeader>): (r: Mapped)
    requires AllLoadsFit(loads)
    ensures |r.mappings| <= |loads|
    ensures forall k :: 0 <= k < |r.mappings| ==> MapsSegment(loads[k], r.mappings[k])
    ensures r.error.None? <==> |r.mappings| == |loads|
    ensures r.error.Some? ==> r.error.value == InvalidArgs && !loads[|r.mappings|].data.Undefined?
    ensures r.error.Some? <==> exists k :: 0 <= k < |loads| && !loads[k].data.Undefined?
  {
    if |loads| == 0 then Mapped([], None)
    else
      var ph := loads[0];
      assert forall k :: 1 <= k < |loads| ==> loads[k] == loads[1..][k - 1];
      match MakeVmo(ph)
      case Err(e) => Mapped([], Some(e))
      case Ok(vmo) =>
        var m := Mapping(RoundDown(ph.vaddr), vmo, |vmo|, ToMmuFlags(ph.flags));
        var rest := MapSegments(loads[1..]);
        MappingsCons(loads, m, rest.mappings);
        Mapped([m] + rest.mappings, rest.error)
  }

  /** A mapping for the first LOAD segment followed by mappings for the
      next ones maps as many LOAD segments. */
  lemma MappingsCons(loads: seq<ProgramHeader>, m: Mapping, ms: seq<Mapping>)
    requires |loads| > 0 && MapsSegment(loads[0], m)
    requires |ms| <= |loads[1..]| && forall k :: 0 <= k < |ms| ==> MapsSegment(loads[1..][k], ms[k])
    ensures |[m] + ms| <= |loads|
    ensures forall k :: 0 <= k < |[m] + ms| ==> MapsSegment(loads[k], ([m] + ms)[k])
  {
    forall k | 0 <= k < |[m] + ms|
      ensures MapsSegment(loads[k], ([m] + ms)[k])
    {
      if k > 0 {
        assert loads[k] == loads[1..][k - 1] && ([m] + ms)[k] == ms[k - 1];
      }
    }
  }

  /** A structured LOAD header is a structured LOAD segment, and back. */
  lemma StructuredLoads(phs: seq<ProgramHeader>)
    ensures HasStructuredLoad(phs) <==> exists k :: 0 <= k < |Loads(phs)| && !Loads(phs)[k].data.Undefined?
  {
    var l := Loads(phs);
    if HasStructuredLoad(phs) {
      var i :| 0 <= i < |phs| && IsLoad(phs[i]) && !phs[i].data.Undefined?;
      assert phs[i] in l;
      var k :| 0 <= k < |l| && l[k] == phs[i];
      assert !l[k].data.Undefined?;
      assert exists k :: 0 <= k < |Loads(phs)| && !Loads(phs)[k].data.Undefined?;
    }
    if exists k :: 0 <= k < |l| && !l[k].data.Undefined? {
      var k :| 0 <= k < |l| && !l[k].data.Undefined?;
      assert l[k] in l;
      var i :| 0 <= i < |phs| && phs[i] == l[k];
      assert IsLoad(phs[i]) && !phs[i].data.Undefined?;
      assert HasStructuredLoad(phs);
    }
  }

  /** Builds and maps the VMO of every LOAD header, skipping other headers,
      and stops at the first LOAD header whose VMO cannot be built; the
      LOAD headers before it stay mapped. */
  function MapLoads(phs: seq<ProgramHeader>): (r: Mapped)
    requires LoadsFit(phs)
    ensures r.error.Some? <==> HasStructuredLoad(phs)
    ensures r.error.Some? ==> r.error.value == InvalidArgs
    ensures |r.mappings| <= |Loads(phs)|
    ensures forall k :: 0 <= k < |r.mappings| ==> MapsSegment(Loads(phs)[k], r.mappings[k])
    ensures r.error.None? <==> |r.mappings| == |Loads(phs)|
    ensures r.error.Some? ==> !Loads(phs)[|r.mappings|].data.Undefined?
  {
    var loads := Loads(phs);
    assert AllLoadsFit(loads) by {
      forall k | 0 <= k < |loads|
        ensures IsLoad(loads[k]) && DataFits(loads[k])
      {
        assert loads[k] in phs;
      }
    }
    StructuredLoads(phs);
    MapSegments(loads)
  }

  /** The region's mappings after loading, and the VMO of the first LOAD
      segment or the error that stopped the loading. */
  datatype Loaded = Loaded(mappings: seq<Mapping>, first: ZxResult<seq<byte>>)

  /** Maps every LOAD segment of `elf` and returns the VMO of the first one.
      The code unwraps the first VMO, so a file without LOAD header stops it. */
  function LoadFromElf(elf: ElfFile): (r: Loaded)
    requires HasLoad(elf.programHeaders)
    requires LoadsFit(elf.programHeaders)
    ensures r.first.Err? <==> HasStructuredLoad(elf.programHeaders)
    ensures r.first.Err? ==> r.first.error == InvalidArgs
    ensures var loads := Loads(elf.programHeaders);
            && |r.mappings| <= |loads|
            && forall k :: 0 <= k < |r.mappings| ==> MapsSegment(loads[k], r.mappings[k])
    ensures r.first.Ok? ==> && |r.mappings| == |Loads(elf.programHeaders)|
                            && MakeVmo(elf.programHeaders[FirstLoad(elf.programHeaders)]) == Ok(r.first.value)
    ensures r.first.Err? ==> !Loads(elf.programHeaders)[|r.mappings|].data.Undefined?
  {
    LoadsFirst(elf.programHeaders);
    var m := MapLoads(elf.programHeaders);
    match m.error
    case Some(e) => Loaded(m.mappings, Err(e))
    case None => Loaded(m.mappings, Ok(m.mappings[0].vmo))
  }

  // ---------------------------------------------------------------------
  // Process start: entry point, stack pointer and auxiliary vector

  const STACK_SIZE: bv64 := 0x8000

  /** Auxiliary vector keys (System V ABI, auxiliary vector). */
  const AT_PHDR: nat := 3
  const AT_PHENT: nat := 4
  const AT_PHNUM: nat := 5
  const AT_PAGESZ: nat := 6
  const AT_BASE: nat := 7

  /** Initial stack pointer for a stack buffer at `stack`: the top of the
      buffer rounded down to a 16-byte boundary. */
  function InitialStackPointer(stack: bv64): (sp: bv64)
    ensures sp & 0xf == 0
    ensures sp <= stack + STACK_SIZE
    ensures stack + STACK_SIZE - sp < 16
  {
    (stack + STACK_SIZE) & !0xf
  }

  datatype StartInfo = StartInfo(entry: nat, auxv: map<nat, nat>)

  /** Entry point and auxiliary vector for the library loaded at `base`:
      the entry and the program headers are found at their file offsets from
      the base, and the vector holds exactly five distinct keys. */
  function StartOf(base: nat, h: ElfHeader): (s: StartInfo)
    ensures s.auxv.Keys == {AT_BASE, AT_PHDR, AT_PHENT, AT_PHNUM, AT_PAGESZ}
    ensures s.auxv[AT_BASE] == base
    ensures s.entry == Wrap(s.auxv[AT_BASE] + h.entryPoint)
    ensures s.auxv[AT_PHDR] == Wrap(s.auxv[AT_BASE] + h.phOffset)
    ensures s.auxv[AT_PAGESZ] == PAGE_SIZE
    ensures s.auxv[AT_PHNUM] == h.phCount && s.auxv[AT_PHENT] == h.phEntrySize
  {
    var auxv := map[AT_BASE := base, AT_PHDR := Wrap(base + h.phOffset), AT_PHENT := h.phEntrySize,
                    AT_PHNUM := h.phCount, AT_PAGESZ := PAGE_SIZE];
    StartInfo(Wrap(base + h.entryPoint), auxv)
  }

  /** Subtracting the base undoes adding it, modulo 2^64. */
  lemma WrapShift(base: nat, x: nat)
    ensures Wrap(Wrap(base + x) as int - base) == Wrap(x)
  {
    var q := (base + x) / WORD_MODULUS;
    assert Wrap(base + x) == base + x - q * WORD_MODULUS;
    assert Wrap(base + x) - base == x + (-q) * WORD_MODULUS;
    ModMultiple(x, -q);
  }

  /** The entry point and the program headers sit at the file's offsets
      from the load base: subtracting the vector's base recovers the
      header's entry point and program-header offset (modulo 2^64). */
  lemma StartOfOffsets(base: nat, h: ElfHeader)
    ensures var s := StartOf(base, h);
            && Wrap(s.entry as int - s.auxv[AT_BASE]) == Wrap(h.entryPoint)
            && Wrap(s.auxv[AT_PHDR] as int - s.auxv[AT_BASE]) == Wrap(h.phOffset)
  {
    WrapShift(base, h.entryPoint);
    WrapShift(base, h.phOffset);
  }
}

=== FILE: rootfs.dfy ===
/** What the build tasks do to the working tree, modelled as a map from
    paths to directory entries. A file's contents are opaque values; the
    download and archive-extraction tools are parameters. A step that fails
    (an `unwrap` on a file operation, a failing tool) stops the task: the
    model returns `None`. */
module Rootfs {
  import opened Zircon
  import opened Xtask

  /** Contents of a regular file. Nothing depends on what they are. */
  type Content = nat

  datatype Node = Dir | File(content: Content) | Symlink(target: string)

  type FileMap = map<Path, Node>

  predicate IsDir(fs: FileMap, p: Path) {
    p in fs && fs[p].Dir?
  }

  predicate IsFile(fs: FileMap, p: Path) {
    p in fs && fs[p].File?
  }

  /** `fs` and `g` agree on every path outside the directory `d`. */
  ghost predicate SameOutside(fs: FileMap, g: FileMap, d: Path) {
    forall p :: !Within(p, d) ==> (p in fs <==> p in g) && (p in fs ==> fs[p] == g[p])
  }

  // ---------------------------------------------------------------------
  // File operations

  /** Removes the directory `d` with everything inside it, if present. */
  function Remove(fs: FileMap, d: Path): (r: FileMap)
    ensures forall p :: p in r <==> p in fs && !Within(p, d)
    ensures SameOutside(r, fs, d)
  {
    map p | p in fs && !Within(p, d) :: fs[p]
  }

  /** Makes `d` an empty directory, removing whatever was inside it. */
  function ClearDir(fs: FileMap, d: Path): (r: FileMap)
    ensures IsDir(r, d)
    ensures forall p :: p in r && Within(p, d) ==> p == d
    ensures SameOutside(r, fs, d)
  {
    Remove(fs, d)[d := Dir]
  }

  /** `g` differs from `fs` at most at the path `p`. */
  ghost predicate SameExcept(g: FileMap, fs: FileMap, p: Path) {
    forall q :: q != p ==> (q in g <==> q in fs) && (q in fs ==> g[q] == fs[q])
  }

  /** Creates the directory `p`; fails when something is already there. */
  function MakeDir(fs: FileMap, p: Path): (r: Option<FileMap>)
    ensures r.Some? <==> p !in fs
    ensures r.Some? ==> IsDir(r.value, p) && SameExcept(r.value, fs, p)
  {
    if p in fs then None else Some(fs[p := Dir])
  }

  /** Copies the regular file `from` to `to`, replacing what was there;
      fails when `from` is not a regular file. */
  function CopyFile(fs: FileMap, from: Path, to: Path): (r: Option<FileMap>)
    ensures r.Some? <==> IsFile(fs, from)
    ensures r.Some? ==> IsFile(r.value, to) && r.value[to].content == fs[from].content
    ensures r.Some? ==> SameExcept(r.value, fs, to)
  {
    if IsFile(fs, from) then Some(fs[to := fs[from]]) else None
  }

  /** Creates a symbolic link at `link` pointing to `target`; fails when
      something is already there. */
  function SymlinkTo(fs: FileMap, target: string, link: Path): (r: Option<FileMap>)
    ensures r.Some? <==> link !in fs
    ensures r.Some? ==> link in r.value && r.value[link] == Symlink(target)
    ensures r.Some? ==> SameExcept(r.value, fs, link)
  {
    if link in fs then None else Some(fs[link := Symlink(target)])
  }

  predicate Distinct(names: seq<string>) {
    forall i, j :: 0 <= i < j < |names| ==> names[i] != names[j]
  }

  /** The entries `dir/<n>` for each name `n`. */
  function Entries(dir: Path, names: seq<string>): set<Path> {
    set n | n in names :: dir + [n]
  }

  lemma EntryInjective(dir: Path, m: string, n: string)
    ensures dir + [m] == dir + [n] <==> m == n
  {
    assert (dir + [m])[|dir|] == m && (dir + [n])[|dir|] == n;
  }

  /** Creates, in order, a link to `target` at `dir/<n>` for each name `n`.
      This succeeds exactly when the names are distinct and none of the
      entries exists yet; then it adds exactly those links. */
  function LinkAll(fs: FileMap, dir: Path, names: seq<string>, target: string): (r: Option<FileMap>)
    ensures r.Some? <==> Distinct(names) && forall n :: n in names ==> dir + [n] !in fs
    ensures r.Some? ==> forall p :: p in r.value <==> p in fs || p in Entries(dir, names)
    ensures r.Some? ==> forall p :: p in fs ==> r.value[p] == fs[p]
    ensures r.Some? ==> forall n :: n in names ==> dir + [n] in r.value && r.value[dir + [n]] == Symlink(target)
    decreases |names|
  {
    if names == [] then Some(fs)
    else
      match SymlinkTo(fs, target, dir + [names[0]])
      case None => None
      case Some(next) =>
        var r := LinkAll(next, dir, names[1..], target);
        DistinctCons(names);
        EntriesCons(dir, names);
        r
  }

  /** A sequence of names is distinct iff its first name does not recur
      and the rest is distinct. */
  lemma DistinctCons(names: seq<string>)
    requires names != []
    ensures Distinct(names) <==> names[0] !in names[1..] && Distinct(names[1..])
  {
    if names[0] !in names[1..] && Distinct(names[1..]) {
      forall i, j | 0 <= i < j < |names|
        ensures names[i] != names[j]
      {
        if i > 0 {
          assert names[i] == names[1..][i - 1] && names[j] == names[1..][j - 1];
        } else {
          assert names[j] == names[1..][j - 1];
        }
      }
    }
    if Distinct(names) {
      forall i, j | 0 <= i < j < |names[1..]|
        ensures names[1..][i] != names[1..][j]
      {
        assert names[1..][i] == names[i + 1] && names[1..][j] == names[j + 1];
      }
    }
  }

  /** The entries for a sequence of names: the first name's entry and the
      rest's; an entry is the first name's only for that name. */
  lemma EntriesCons(dir: Path, names: seq<string>)
    requires names != []
    ensures Entries(dir, names) == {dir + [names[0]]} + Entries(dir, names[1..])
    ensures forall n :: dir + [n] == dir + [names[0]] ==> n == names[0]
  {
    assert forall n :: n in names <==> n == names[0] || n in names[1..];
    forall n
      ensures dir + [n] == dir + [names[0]] ==> n == names[0]
    {
      EntryInjective(dir, n, names[0]);
    }
  }

  /** The part of `fs` inside the directory `d`, with paths relative to `d`
      (the directory itself is the empty path). */
  function Subtree(fs: FileMap, d: Path): (t: FileMap)
    ensures forall q :: q in t <==> d + q in fs
    ensures forall q :: q in t ==> t[q] == fs[d + q]
  {
    var keys := set p | p in fs && Within(p, d) :: p[|d|..];
    assert forall q :: q in keys <==> d + q in fs by {
      forall q | q in keys
        ensures d + q in fs
      {
        var p :| p in fs && Within(p, d) && p[|d|..] == q;
        assert p == d + q;
      }
      forall q | d + q in fs
        ensures q in keys
      {
        assert (d + q)[|d|..] == q;
      }
    }
    map q | q in keys :: fs[d + q]
  }

  /** Writes the entries of `tree` (relative paths) under the directory
      `d`, replacing entries with the same path; every other entry of `fs`
      stays. */
  function Place(fs: FileMap, d: Path, tree: FileMap): (r: FileMap)
    ensures forall q :: q in tree ==> d + q in r && r[d + q] == tree[q]
    ensures forall p :: p in r && Within(p, d) ==> p in fs || p[|d|..] in tree
    ensures SameOutside(r, fs, d)
    ensures forall p :: p in fs ==> p in r
  {
    var keys := fs.Keys + set q | q in tree :: d + q;
    assert forall q :: (d + q)[|d|..] == q;
    map p | p in keys :: if Within(p, d) && p[|d|..] in tree then tree[p[|d|..]] else fs[p]
  }

  /** Copies the directory `src` with everything inside it to `dst`; fails
      when `src` is not a directory. */
  function CopyDir(fs: FileMap, src: Path, dst: Path): (r: Option<FileMap>)
    ensures r.Some? <==> IsDir(fs, src)
    ensures r.Some? ==> forall q :: src + q in fs ==> dst + q in r.value && r.value[dst + q] == fs[src + q]
    ensures r.Some? ==> SameOutside(r.value, fs, dst)
  {
    if IsDir(fs, src) then Some(Place(fs, dst, Subtree(fs, src))) else None
  }

  // ---------------------------------------------------------------------
  // Fetching and extracting the prebuilt root file system

  /** The external tools: `fetch` downloads the archive of an architecture,
      `untar` lists the entries (relative paths) an archive extracts to when
      the given number of leading components is stripped. */
  datatype Tools = Tools(fetch: Arch -> Content, untar: (Content, nat) -> FileMap)

  /** The tree after making sure the archive is present: it is downloaded
      only when nothing is at its path yet. */
  function Downloaded(fs: FileMap, a: Arch, tools: Tools): (r: FileMap)
    ensures ArchivePath(a) in r
    ensures ArchivePath(a) in fs ==> r == fs
    ensures ArchivePath(a) !in fs ==> r[ArchivePath(a)] == File(tools.fetch(a))
    ensures forall p :: p != ArchivePath(a) ==> (p in r <==> p in fs) && (p in fs ==> r[p] == fs[p])
  {
    if ArchivePath(a) in fs then fs else fs[ArchivePath(a) := File(tools.fetch(a))]
  }

  /** The entries the archive extracts to, or `None` when the archive path
      does not hold a regular file (extraction fails). */
  function Extracted(fs: FileMap, a: Arch, tools: Tools): Option<FileMap> {
    var dl := Downloaded(fs, a, tools);
    if IsFile(dl, ArchivePath(a)) then Some(tools.untar(dl[ArchivePath(a)].content, StripComponents(a)))
    else None
  }

  /** Downloads the archive if absent, empties the extraction directory and
      extracts the archive there. */
  function PrebuildRootfs(fs: FileMap, a: Arch, tools: Tools): (r: Option<FileMap>)
    ensures r.Some? <==> Extracted(fs, a, tools).Some?
    ensures r.Some? ==> forall q :: q in Extracted(fs, a, tools).value ==>
                          ExtractDir(a) + q in r.value && r.value[ExtractDir(a) + q] == Extracted(fs, a, tools).value[q]
    ensures r.Some? ==> forall p :: p in r.value && Within(p, ExtractDir(a)) ==>
                          p == ExtractDir(a) || p[|ExtractDir(a)|..] in Extracted(fs, a, tools).value
    ensures r.Some? ==> forall p :: !Within(p, ExtractDir(a)) && p != ArchivePath(a) ==>
                          (p in r.value <==> p in fs) && (p in fs ==> r.value[p] == fs[p])
  {
    var dl := Downloaded(fs, a, tools);
    match Extracted(fs, a, tools)
    case None => None
    case Some(tree) => Some(Place(ClearDir(dl, ExtractDir(a)), ExtractDir(a), tree))
  }

  /** Inside the extraction directory there is nothing but what the
      archive extracts to. */
  lemma ExtractedEntries(fs: FileMap, a: Arch, tools: Tools, r: FileMap, q: Path)
    requires PrebuildRootfs(fs, a, tools) == Some(r)
    requires q != [] && q !in Extracted(fs, a, tools).value
    ensures ExtractDir(a) + q !in r
  {
    assert (ExtractDir(a) + q)[|ExtractDir(a)|..] == q;
  }

  // ---------------------------------------------------------------------
  // Building the root file system

  /** The commands provided as links to busybox. */
  const SH: seq<string> := [
    "cat", "cp", "echo", "false", "grep", "gzip", "kill", "ln", "ls", "mkdir", "mv",
    "pidof", "ping", "ping6", "printenv", "ps", "pwd", "rm", "rmdir", "sh", "sleep",
    "stat", "tar", "touch", "true", "uname", "usleep", "watch"]

  /** The dynamic loader the libos build uses on x86_64. */
  const LIBOS_LOADER: Path := ["prebuilt", "linux", "libc-libos.so"]

  function Bin(a: Arch): Path {
    Rootfs(a) + ["bin"]
  }

  function Lib(a: Arch): Path {
    Rootfs(a) + ["lib"]
  }

  /** File name of the musl dynamic loader: `ld-musl-<arch>.so.1`. */
  function LoaderName(a: Arch): string {
    "ld-musl-" + AsStr(a) + ".so.1"
  }

  /** Where the loader installed in the root file system comes from: the
      extracted tree on riscv64, the libos loader on x86_64. */
  function LoaderSource(a: Arch): Path {
    match a
    case Riscv64 => ExtractDir(a) + ["lib", LoaderName(a)]
    case X86_64 => LIBOS_LOADER
  }

  /** `a` comes strictly before `b` in dictionary order. */
  predicate Before(a: string, b: string)
    decreases |a|
  {
    if |a| == 0 then |b| > 0
    else |b| > 0 && (a[0] < b[0] || (a[0] == b[0] && Before(a[1..], b[1..])))
  }

  lemma {:induction false} BeforeIrreflexive(a: string)
    ensures !Before(a, a)
    decreases |a|
  {
    if |a| > 0 {
      BeforeIrreflexive(a[1..]);
    }
  }

  lemma {:induction false} BeforeTransitive(a: string, b: string, c: string)
    requires Before(a, b) && Before(b, c)
    ensures Before(a, c)
    decreases |a|
  {
    if |a| > 0 && a[0] == b[0] == c[0] {
      BeforeTransitive(a[1..], b[1..], c[1..]);
    }
  }

  /** Names in strictly increasing dictionary order. */
  predicate Ascending(names: seq<string>) {
    forall i :: 0 <= i < |names| - 1 ==> Before(names[i], names[i + 1])
  }

  /** Names in strictly increasing order are distinct. */
  lemma {:induction false} AscendingDistinct(names: seq<string>)
    requires Ascending(names)
    ensures Distinct(names)
    ensures forall i, j :: 0 <= i < j < |names| ==> Before(names[i], names[j])
    decreases |names|
  {
    if |names| > 1 {
      var rest := names[1..];
      assert Ascending(rest) by {
        forall i | 0 <= i < |rest| - 1
          ensures Before(rest[i], rest[i + 1])
        {
          assert rest[i] == names[i + 1] && rest[i + 1] == names[i + 2];
        }
      }
      AscendingDistinct(rest);
      forall i, j | 0 <= i < j < |names|
        ensures Before(names[i], names[j])
      {
        if i == 0 {
          if j > 1 {
            assert names[1] == rest[0] && names[j] == rest[j - 1];
            BeforeTransitive(names[0], names[1], names[j]);
          }
        } else {
          assert names[i] == rest[i - 1] && names[j] == rest[j - 1];
        }
      }
      forall i, j | 0 <= i < j < |names|
        ensures names[i] != names[j]
      {
        if names[i] == names[j] {
          BeforeIrreflexive(names[i]);
        }
      }
    }
  }

  /** The command names are listed in dictionary order, checked a third
      of the list at a time. */
  lemma ShAscendingLow()
    ensures forall i :: 0 <= i < 9 ==> Before(SH[i], SH[i + 1])
  {
  }

  lemma ShAscendingMid()
    ensures forall i :: 9 <= i < 18 ==> Before(SH[i], SH[i + 1])
  {
  }

  lemma ShAscendingHigh()
    ensures forall i :: 18 <= i < 27 ==> Before(SH[i], SH[i + 1])
  {
  }

  lemma ShAscending()
    ensures Ascending(SH)
  {
    ShAscendingLow();
    ShAscendingMid();
    ShAscendingHigh();
  }

  /** The 28 command names are distinct and none is `busybox` (none even
      starts with a `b`). */
  lemma ShNames()
    ensures |SH| == 28 && LinkNames(SH)
  {
    ShAscending();
    AscendingDistinct(SH);
    assert forall i :: 0 <= i < |SH| ==> SH[i][0] != 'b';
  }

  /** The paths of a freshly built root file system. */
  function LayoutPaths(a: Arch, links: seq<string>): set<Path> {
    {Rootfs(a), Bin(a), Lib(a), Bin(a) + ["busybox"], Lib(a) + [LoaderName(a)]} + Entries(Bin(a), links)
  }

  /** Names that can all be linked next to busybox. */
  predicate LinkNames(links: seq<string>) {
    Distinct(links) && "busybox" !in links
  }

  /** `fs` holds a freshly built root file system for `a`: the directories
      `bin` and `lib`, busybox, a link to busybox for every command, the
      loader, and nothing else. */
  predicate Layout(fs: FileMap, a: Arch, links: seq<string>, busybox: Content, loader: Content) {
    && IsDir(fs, Rootfs(a)) && IsDir(fs, Bin(a)) && IsDir(fs, Lib(a))
    && Bin(a) + ["busybox"] in fs && fs[Bin(a) + ["busybox"]] == File(busybox)
    && Lib(a) + [LoaderName(a)] in fs && fs[Lib(a) + [LoaderName(a)]] == File(loader)
    && (forall n :: n in links ==> Bin(a) + [n] in fs && fs[Bin(a) + [n]] == Symlink("busybox"))
    && (forall p :: p in fs && Within(p, Rootfs(a)) ==> p in LayoutPaths(a, links))
  }

  /** Fills the (emptied) root file system from the extracted tree in `fs`,
      linking each of `links` to busybox. */
  function Populate(fs: FileMap, a: Arch, links: seq<string>): (r: Option<FileMap>)
    ensures r.Some? ==> IsFile(fs, ExtractDir(a) + ["bin", "busybox"]) && IsFile(fs, LoaderSource(a))
    ensures r.Some? ==> IsDir(r.value, Bin(a)) && IsDir(r.value, Lib(a))
    ensures r.Some? ==> && IsFile(r.value, Bin(a) + ["busybox"])
                        && r.value[Bin(a) + ["busybox"]].content == fs[ExtractDir(a) + ["bin", "busybox"]].content
    ensures r.Some? ==> && IsFile(r.value, Lib(a) + [LoaderName(a)])
                        && r.value[Lib(a) + [LoaderName(a)]].content == fs[LoaderSource(a)].content
    ensures r.Some? ==> forall n :: n in links ==> Bin(a) + [n] in r.value && r.value[Bin(a) + [n]] == Symlink("busybox")
  {
    PopulateSources(a);
    var src := ExtractDir(a);
    var fs1 := ClearDir(fs, Rootfs(a));
    var m1 := MakeDir(fs1, Bin(a));
    if m1.None? then None
    else
      var m2 := MakeDir(m1.value, Lib(a));
      if m2.None? then None
      else
        var m3 := CopyFile(m2.value, src + ["bin", "busybox"], Bin(a) + ["busybox"]);
        if m3.None? then None
        else
          var m4 := CopyFile(m3.value, LoaderSource(a), Lib(a) + [LoaderName(a)]);
          if m4.None? then None
          else LinkAll(m4.value, Bin(a), links, "busybox")
  }

  /** The sources Populate copies from lie outside the root file system, and
      the entries it creates are distinct. */
  lemma PopulateSources(a: Arch)
    ensures !Within(ExtractDir(a) + ["bin", "busybox"], Rootfs(a))
    ensures !Within(LoaderSource(a), Rootfs(a))
    ensures Within(Bin(a), Rootfs(a)) && Within(Lib(a), Rootfs(a))
    ensures Within(Bin(a) + ["busybox"], Rootfs(a)) && Within(Lib(a) + [LoaderName(a)], Rootfs(a))
    ensures && Rootfs(a) != Bin(a) && Rootfs(a) != Lib(a)
            && Rootfs(a) != Bin(a) + ["busybox"] && Rootfs(a) != Lib(a) + [LoaderName(a)]
    ensures && Bin(a) != Lib(a) && Bin(a) != Bin(a) + ["busybox"] && Bin(a) != Lib(a) + [LoaderName(a)]
            && Lib(a) != Bin(a) + ["busybox"] && Lib(a) != Lib(a) + [LoaderName(a)]
            && Bin(a) + ["busybox"] != Lib(a) + [LoaderName(a)]
    ensures forall n :: Within(Bin(a) + [n], Rootfs(a)) && Bin(a) + [n] != Rootfs(a)
    ensures forall n :: Bin(a) + [n] != Lib(a) + [LoaderName(a)] && Bin(a) + [n] != Bin(a) && Bin(a) + [n] != Lib(a)
  {
    PathsDisjoint(a, a, ExtractDir(a) + ["bin", "busybox"]);
    PathsDisjoint(a, a, LoaderSource(a));
    assert Bin(a)[2] != Lib(a)[2];
    assert (Bin(a) + ["busybox"])[2] != (Lib(a) + [LoaderName(a)])[2];
    forall n
      ensures Bin(a) + [n] != Lib(a) + [LoaderName(a)] && Bin(a) + [n] != Bin(a) && Bin(a) + [n] != Lib(a)
      ensures Within(Bin(a) + [n], Rootfs(a)) && Bin(a) + [n] != Rootfs(a)
    {
      assert (Bin(a) + [n])[2] == "bin" && (Lib(a) + [LoaderName(a)])[2] == "lib";
      assert |Bin(a) + [n]| == 4;
    }
  }

  /** Before the links are made, the root file system holds exactly the two
      directories, busybox and the loader. */
  lemma PopulateLinks(a: Arch, links: seq<string>, fs: FileMap, m4: FileMap)
    requires LinkNames(links)
    requires ExtractDir(a) + ["bin", "busybox"] in fs && LoaderSource(a) in fs
    requires m4 == ClearDir(fs, Rootfs(a))[Bin(a) := Dir][Lib(a) := Dir]
                     [Bin(a) + ["busybox"] := fs[ExtractDir(a) + ["bin", "busybox"]]]
                     [Lib(a) + [LoaderName(a)] := fs[LoaderSource(a)]]
    ensures forall n :: n in links ==> Bin(a) + [n] !in m4
  {
    PopulateSources(a);
    forall n | n in links
      ensures Bin(a) + [n] !in m4
    {
      assert Within(Bin(a) + [n], Rootfs(a));
      EntryInjective(Bin(a), n, "busybox");
    }
  }

  /** Populate succeeds exactly when busybox and the loader are regular
      files at their sources; it then leaves the freshly built layout and
      changes nothing outside the root file system. */
  lemma PopulateSpec(fs: FileMap, a: Arch, links: seq<string>)
    requires LinkNames(links)
    ensures Populate(fs, a, links).Some? <==> IsFile(fs, ExtractDir(a) + ["bin", "busybox"]) && IsFile(fs, LoaderSource(a))
    ensures Populate(fs, a, links).Some? ==>
              Layout(Populate(fs, a, links).value, a, links, fs[ExtractDir(a) + ["bin", "busybox"]].content, fs[LoaderSource(a)].content)
    ensures Populate(fs, a, links).Some? ==> SameOutside(Populate(fs, a, links).value, fs, Rootfs(a))
  {
    var busybox := ExtractDir(a) + ["bin", "busybox"];
    PopulateSources(a);
    var fs1 := ClearDir(fs, Rootfs(a));
    var fs2 := fs1[Bin(a) := Dir];
    var fs3 := fs2[Lib(a) := Dir];
    assert MakeDir(fs1, Bin(a)) == Some(fs2);
    assert MakeDir(fs2, Lib(a)) == Some(fs3);
    assert IsFile(fs3, busybox) <==> IsFile(fs, busybox);
    if IsFile(fs, busybox) {
      PopulateCopied(fs, a, links, fs3);
    }
  }

  /** The second half of `PopulateSpec`: once the directories are made and
      busybox is found, the loader decides the outcome. */
  lemma PopulateCopied(fs: FileMap, a: Arch, links: seq<string>, fs3: FileMap)
    requires LinkNames(links)
    requires IsFile(fs, ExtractDir(a) + ["bin", "busybox"])
    requires fs3 == ClearDir(fs, Rootfs(a))[Bin(a) := Dir][Lib(a) := Dir]
    requires Populate(fs, a, links) == (
               var m3 := CopyFile(fs3, ExtractDir(a) + ["bin", "busybox"], Bin(a) + ["busybox"]);
               if m3.None? then None
               else
                 var m4 := CopyFile(m3.value, LoaderSource(a), Lib(a) + [LoaderName(a)]);
                 if m4.None? then None
                 else LinkAll(m4.value, Bin(a), links, "busybox"))
    ensures Populate(fs, a, links).Some? <==> IsFile(fs, LoaderSource(a))
    ensures Populate(fs, a, links).Some? ==>
              Layout(Populate(fs, a, links).value, a, links, fs[ExtractDir(a) + ["bin", "busybox"]].content, fs[LoaderSource(a)].content)
    ensures Populate(fs, a, links).Some? ==> SameOutside(Populate(fs, a, links).value, fs, Rootfs(a))
  {
    var busybox := ExtractDir(a) + ["bin", "busybox"];
    var loader := Lib(a) + [LoaderName(a)];
    PopulateSources(a);
    var fs4 := fs3[Bin(a) + ["busybox"] := fs[busybox]];
    assert CopyFile(fs3, busybox, Bin(a) + ["busybox"]) == Some(fs4);
    assert IsFile(fs4, LoaderSource(a)) <==> IsFile(fs, LoaderSource(a));
    if IsFile(fs, LoaderSource(a)) {
      var fs5 := fs4[loader := fs[LoaderSource(a)]];
      assert CopyFile(fs4, LoaderSource(a), loader) == Some(fs5);
      PopulateLinks(a, links, fs, fs5);
      var r := LinkAll(fs5, Bin(a), links, "busybox");
      PopulateResult(a, links, fs, fs5, r.value);
    }
  }

  /** The links complete the layout, all inside the root file system. */
  lemma PopulateResult(a: Arch, links: seq<string>, fs: FileMap, fs5: FileMap, r: FileMap)
    requires ExtractDir(a) + ["bin", "busybox"] in fs && LoaderSource(a) in fs
    requires fs[ExtractDir(a) + ["bin", "busybox"]].File? && fs[LoaderSource(a)].File?
    requires fs5 == ClearDir(fs, Rootfs(a))[Bin(a) := Dir][Lib(a) := Dir]
                      [Bin(a) + ["busybox"] := fs[ExtractDir(a) + ["bin", "busybox"]]]
                      [Lib(a) + [LoaderName(a)] := fs[LoaderSource(a)]]
    requires forall p :: p in r <==> p in fs5 || p in Entries(Bin(a), links)
    requires forall p :: p in fs5 ==> r[p] == fs5[p]
    requires forall n :: n in links ==> Bin(a) + [n] in r && r[Bin(a) + [n]] == Symlink("busybox")
    ensures Layout(r, a, links, fs[ExtractDir(a) + ["bin", "busybox"]].content, fs[LoaderSource(a)].content)
    ensures SameOutside(r, fs, Rootfs(a))
  {
    PopulateSources(a);
    PlacedLayout(Rootfs(a), Bin(a), Lib(a), Bin(a) + ["busybox"], Lib(a) + [LoaderName(a)], ExtractDir(a) + ["bin", "busybox"], LoaderSource(a), links, fs, fs5, r);
  }

  /** The shape of a populated directory `root`, for any choice of its
      distinct entries: the directories `bin` and `lib`, the files `bb` and
      `ld` copied from outside, and the links in `bin`. */
  lemma PlacedLayout(root: Path, bin: Path, lib: Path, bb: Path, ld: Path, src1: Path, src2: Path,
                     links: seq<string>, fs: FileMap, fs5: FileMap, r: FileMap)
    requires Within(bin, root) && Within(lib, root) && Within(bb, root) && Within(ld, root)
    requires root != bin && root != lib && root != bb && root != ld
    requires bin != lib && bin != bb && bin != ld && lib != bb && lib != ld && bb != ld
    requires forall n :: Within(bin + [n], root) && bin + [n] != root
    requires src1 in fs && src2 in fs && !Within(src1, root) && !Within(src2, root)
    requires fs5 == ClearDir(fs, root)[bin := Dir][lib := Dir][bb := fs[src1]][ld := fs[src2]]
    requires forall p :: p in r <==> p in fs5 || p in Entries(bin, links)
    requires forall p :: p in fs5 ==> r[p] == fs5[p]
    ensures IsDir(r, root) && IsDir(r, bin) && IsDir(r, lib)
    ensures bb in r && r[bb] == fs[src1] && ld in r && r[ld] == fs[src2]
    ensures forall p :: p in r && Within(p, root) ==> p in {root, bin, lib, bb, ld} + Entries(bin, links)
    ensures SameOutside(r, fs, root)
  {
    var fs1 := ClearDir(fs, root);
    forall p | p in r && Within(p, root)
      ensures p in {root, bin, lib, bb, ld} + Entries(bin, links)
    {
      if p !in Entries(bin, links) && p != bin && p != lib && p != bb && p != ld {
        assert p in fs1;
      }
    }
    forall p | !Within(p, root)
      ensures (p in r <==> p in fs) && (p in fs ==> r[p] == fs[p])
    {
      assert p !in Entries(bin, links);
      assert p != bin && p != lib && p != bb && p != ld;
    }
  }

  /** Builds the root file system of `a`. With `clear` unset, an existing
      root file system directory is kept as it is. Otherwise the prebuilt
      tree is fetched and extracted and the root file system is emptied and
      filled from it. */
  function MakeRootfs(fs: FileMap, a: Arch, clear: bool, tools: Tools): (r: Option<FileMap>)
    ensures IsDir(fs, Rootfs(a)) && !clear ==> r == Some(fs)
  {
    if IsDir(fs, Rootfs(a)) && !clear then Some(fs)
    else
      match PrebuildRootfs(fs, a, tools)
      case None => None
      case Some(fs1) => Populate(fs1, a, SH)
  }

  /** What a rebuild needs: an archive that is a regular file, busybox in
      it, and the loader (in the archive on riscv64, the libos loader on
      x86_64). */
  predicate BuildInputs(fs: FileMap, a: Arch, tools: Tools) {
    var t := Extracted(fs, a, tools);
    && t.Some?
    && IsFile(t.value, ["bin", "busybox"])
    && (a == Riscv64 ==> IsFile(t.value, ["lib", LoaderName(a)]))
    && (a == X86_64 ==> IsFile(fs, LIBOS_LOADER))
  }

  /** The loader content a rebuild installs. */
  function LoaderContent(fs: FileMap, a: Arch, tools: Tools): Content
    requires BuildInputs(fs, a, tools)
  {
    match a
    case Riscv64 => Extracted(fs, a, tools).value[["lib", LoaderName(a)]].content
    case X86_64 => fs[LIBOS_LOADER].content
  }

  /** A rebuild succeeds exactly when its inputs are there. It then leaves
      the freshly built layout, with busybox and the loader from their
      sources, and changes nothing outside the root file system, the
      extraction directory and the archive. */
  lemma MakeRootfsRebuild(fs: FileMap, a: Arch, clear: bool, tools: Tools)
    requires !(IsDir(fs, Rootfs(a)) && !clear)
    ensures MakeRootfs(fs, a, clear, tools).Some? <==> BuildInputs(fs, a, tools)
    ensures MakeRootfs(fs, a, clear, tools).Some? ==>
              Layout(MakeRootfs(fs, a, clear, tools).value, a, SH,
                     Extracted(fs, a, tools).value[["bin", "busybox"]].content, LoaderContent(fs, a, tools))
    ensures MakeRootfs(fs, a, clear, tools).Some? ==>
              forall p :: !Within(p, Rootfs(a)) && !Within(p, ExtractDir(a)) && p != ArchivePath(a) ==>
                (p in MakeRootfs(fs, a, clear, tools).value <==> p in fs) &&
                (p in fs ==> MakeRootfs(fs, a, clear, tools).value[p] == fs[p])
  {
    var pre := PrebuildRootfs(fs, a, tools);
    if pre.Some? {
      ShNames();
      PopulateSpec(pre.value, a, SH);
      RebuildSources(fs, a, tools, pre.value);
    }
  }

  /** After extraction, busybox and the loader are at their sources exactly
      when a rebuild has its inputs, and hold the input contents. */
  lemma RebuildSources(fs: FileMap, a: Arch, tools: Tools, r: FileMap)
    requires PrebuildRootfs(fs, a, tools) == Some(r)
    ensures (IsFile(r, ExtractDir(a) + ["bin", "busybox"]) && IsFile(r, LoaderSource(a))) <==> BuildInputs(fs, a, tools)
    ensures BuildInputs(fs, a, tools) ==>
              && r[ExtractDir(a) + ["bin", "busybox"]].content == Extracted(fs, a, tools).value[["bin", "busybox"]].content
              && r[LoaderSource(a)].content == LoaderContent(fs, a, tools)
  {
    var t := Extracted(fs, a, tools).value;
    assert IsFile(r, ExtractDir(a) + ["bin", "busybox"]) <==> IsFile(t, ["bin", "busybox"]) by {
      if ["bin", "busybox"] !in t {
        ExtractedEntries(fs, a, tools, r, ["bin", "busybox"]);
      }
    }
    if a == Riscv64 {
      assert IsFile(r, LoaderSource(a)) <==> IsFile(t, ["lib", LoaderName(a)]) by {
        if ["lib", LoaderName(a)] !in t {
          ExtractedEntries(fs, a, tools, r, ["lib", LoaderName(a)]);
        }
      }
    } else {
      assert !Within(LIBOS_LOADER, ExtractDir(a)) && LIBOS_LOADER != ArchivePath(a) by {
        assert LIBOS_LOADER[0] != ExtractDir(a)[0];
      }
    }
  }

  /** Building again without clearing keeps the result. */
  lemma MakeRootfsIdempotent(fs: FileMap, a: Arch, clear: bool, tools: Tools)
    requires MakeRootfs(fs, a, clear, tools).Some?
    ensures MakeRootfs(MakeRootfs(fs, a, clear, tools).value, a, false, tools) == MakeRootfs(fs, a, clear, tools)
  {
    if !(IsDir(fs, Rootfs(a)) && !clear) {
      MakeRootfsRebuild(fs, a, clear, tools);
    }
  }

  // ---------------------------------------------------------------------
  // Tasks that start from the root file system

  /** The result of building an image: the working tree afterwards and the
      tree packed into the image (paths relative to the root file system). */
  datatype Imaged = Imaged(tree: FileMap, packed: FileMap)

  /** Builds the image. The root file system is built first if missing. */
  function Image(fs: FileMap, a: Arch, tools: Tools): (r: Option<Imaged>)
    ensures MakeRootfs(fs, a, false, tools).None? ==> r.None?
    ensures MakeRootfs(fs, a, false, tools).Some? ==> r == ImageOf(MakeRootfs(fs, a, false, tools).value, a)
  {
    match MakeRootfs(fs, a, false, tools)
    case None => None
    case Some(built) => ImageOf(built, a)
  }

  /** Packs the built root file system. On x86_64 the real musl loader from
      the extracted tree is put in place for packing, and the libos loader
      is put back afterwards. */
  function ImageOf(built: FileMap, a: Arch): (r: Option<Imaged>)
    ensures a == Riscv64 ==> r == Some(Imaged(built, Subtree(built, Rootfs(a))))
  {
    match a
    case Riscv64 => Some(Imaged(built, Subtree(built, Rootfs(a))))
    case X86_64 =>
      var loader := Lib(a) + [LoaderName(a)];
      match CopyFile(built, ExtractDir(a) + ["lib", LoaderName(a)], loader)
      case None => None
      case Some(swapped) =>
        var packed := Subtree(swapped, Rootfs(a));
        match CopyFile(swapped, LIBOS_LOADER, loader)
        case None => None
        case Some(restored) => Some(Imaged(restored, packed))
  }

  /** On x86_64 the image holds the musl loader from the extracted tree and
      otherwise the root file system as built; afterwards the loader in the
      working tree is the libos loader and nothing else has changed. */
  lemma ImageLoaderSwap(built: FileMap)
    ensures var loader := ["lib", LoaderName(X86_64)];
            var r := ImageOf(built, X86_64);
            && (r.Some? <==> IsFile(built, ExtractDir(X86_64) + loader) && IsFile(built, LIBOS_LOADER))
            && (r.Some? ==> loader in r.value.packed && r.value.packed[loader] == built[ExtractDir(X86_64) + loader])
            && (r.Some? ==> forall q :: q != loader ==> (q in r.value.packed <==> Rootfs(X86_64) + q in built))
            && (r.Some? ==> forall q :: q != loader && q in r.value.packed ==> r.value.packed[q] == built[Rootfs(X86_64) + q])
            && (r.Some? ==> r.value.tree == built[Rootfs(X86_64) + loader := built[LIBOS_LOADER]])
  {
    var a := X86_64;
    var loader := ["lib", LoaderName(a)];
    assert Lib(a) + [LoaderName(a)] == Rootfs(a) + loader;
    forall q | Rootfs(a) + q == Rootfs(a) + loader
      ensures q == loader
    {
      assert q == (Rootfs(a) + q)[|Rootfs(a)|..];
    }
    assert !Within(LIBOS_LOADER, Rootfs(a)) by {
      assert LIBOS_LOADER[0] != Rootfs(a)[0];
    }
    assert LIBOS_LOADER != Rootfs(a) + loader;
  }

  /** When the installed loader already is the libos loader, as a rebuild
      leaves it, packing an x86_64 image leaves the working tree as it was. */
  lemma ImageOfRestores(built: FileMap)
    requires Lib(X86_64) + [LoaderName(X86_64)] in built && LIBOS_LOADER in built
    requires built[Lib(X86_64) + [LoaderName(X86_64)]] == built[LIBOS_LOADER]
    ensures ImageOf(built, X86_64).Some? ==> ImageOf(built, X86_64).value.tree == built
  {
    ImageLoaderSwap(built);
    assert Lib(X86_64) + [LoaderName(X86_64)] == Rootfs(X86_64) + ["lib", LoaderName(X86_64)];
  }

  /** Building the image right after a rebuild leaves the working tree
      exactly as the rebuild left it: the libos loader is restored. */
  lemma ImageKeepsBuiltRootfs(fs: FileMap, clear: bool, tools: Tools)
    requires !(IsDir(fs, Rootfs(X86_64)) && !clear)
    requires MakeRootfs(fs, X86_64, clear, tools).Some?
    ensures var built := MakeRootfs(fs, X86_64, clear, tools).value;
            Image(built, X86_64, tools).Some? ==> Image(built, X86_64, tools).value.tree == built
  {
    var a := X86_64;
    var built := MakeRootfs(fs, a, clear, tools).value;
    MakeRootfsRebuild(fs, a, clear, tools);
    MakeRootfsIdempotent(fs, a, clear, tools);
    assert !Within(LIBOS_LOADER, Rootfs(a)) && !Within(LIBOS_LOADER, ExtractDir(a)) && LIBOS_LOADER != ArchivePath(a) by {
      assert LIBOS_LOADER[0] != Rootfs(a)[0] && LIBOS_LOADER[0] != ExtractDir(a)[0];
    }
    assert built[LIBOS_LOADER] == fs[LIBOS_LOADER];
    ImageOfRestores(built);
  }

  /** The libc test suite repository, in the working tree. */
  const LIBC_TEST_REPO: Path := ["libc-test"]

  /** Puts the libc test suite into the root file system (built first if
      missing). */
  function PutLibcTest(fs: FileMap, a: Arch, tools: Tools): (r: Option<FileMap>)
    ensures MakeRootfs(fs, a, false, tools).None? ==> r.None?
    ensures MakeRootfs(fs, a, false, tools).Some? ==> r == LibcTestInto(MakeRootfs(fs, a, false, tools).value, a)
  {
    match MakeRootfs(fs, a, false, tools)
    case None => None
    case Some(built) => LibcTestInto(built, a)
  }

  /** Removes any previous copy of the suite, copies the repository in and
      makes its default configuration `config.mak`. */
  function LibcTestInto(built: FileMap, a: Arch): (r: Option<FileMap>)
    ensures r.Some? ==> IsDir(built, LIBC_TEST_REPO)
    ensures r.Some? ==> IsFile(r.value, LibcTest(a) + ["config.mak"])
    ensures r.Some? ==> SameOutside(r.value, built, LibcTest(a))
  {
    var dir := LibcTest(a);
    assert !Within(LIBC_TEST_REPO, dir);
    match CopyDir(Remove(built, dir), LIBC_TEST_REPO, dir)
    case None => None
    case Some(copied) => CopyFile(copied, dir + ["config.mak.def"], dir + ["config.mak"])
  }

  /** Putting the suite in succeeds exactly when the repository holds a
      default configuration. The suite then mirrors the repository, with
      `config.mak` a copy of the default configuration, and everything
      outside the suite's directory is as the build left it. */
  lemma LibcTestIntoSpec(built: FileMap, a: Arch)
    ensures LibcTestInto(built, a).Some? <==>
              IsDir(built, LIBC_TEST_REPO) && IsFile(built, LIBC_TEST_REPO + ["config.mak.def"])
    ensures var r := LibcTestInto(built, a);
            r.Some? ==>
              && SameOutside(r.value, built, LibcTest(a))
              && LibcTest(a) + ["config.mak"] in r.value
              && r.value[LibcTest(a) + ["config.mak"]] == built[LIBC_TEST_REPO + ["config.mak.def"]]
              && (forall q :: q != ["config.mak"] ==> (LibcTest(a) + q in r.value <==> LIBC_TEST_REPO + q in built))
              && (forall q :: q != ["config.mak"] && LIBC_TEST_REPO + q in built ==>
                    r.value[LibcTest(a) + q] == built[LIBC_TEST_REPO + q])
  {
    var dir := LibcTest(a);
    var removed := Remove(built, dir);
    assert forall q :: !Within(LIBC_TEST_REPO + q, dir) by {
      forall q ensures !Within(LIBC_TEST_REPO + q, dir) {
        assert (LIBC_TEST_REPO + q)[0] != dir[0];
      }
    }
    assert IsDir(removed, LIBC_TEST_REPO) <==> IsDir(built, LIBC_TEST_REPO) by {
      assert !Within(LIBC_TEST_REPO, dir) by {
        assert LIBC_TEST_REPO[0] != dir[0];
      }
    }
    var c := CopyDir(removed, LIBC_TEST_REPO, dir);
    if c.Some? {
      LibcTestCopied(built, removed, c.value, dir);
      forall q | dir + q == dir + ["config.mak"]
        ensures q == ["config.mak"]
      {
        assert q == (dir + q)[|dir|..];
      }
      assert Within(dir + ["config.mak"], dir);
    }
  }

  /** What the directory copy of the repository leaves inside and outside
      the suite's directory. */
  lemma LibcTestCopied(built: FileMap, removed: FileMap, copied: FileMap, dir: Path)
    requires forall q :: !Within(LIBC_TEST_REPO + q, dir)
    requires removed == Remove(built, dir)
    requires IsDir(removed, LIBC_TEST_REPO) && CopyDir(removed, LIBC_TEST_REPO, dir) == Some(copied)
    ensures SameOutside(copied, built, dir)
    ensures forall q :: dir + q in copied <==> LIBC_TEST_REPO + q in built
    ensures forall q :: LIBC_TEST_REPO + q in built ==> copied[dir + q] == built[LIBC_TEST_REPO + q]
    ensures IsFile(copied, dir + ["config.mak.def"]) <==> IsFile(built, LIBC_TEST_REPO + ["config.mak.def"])
  {
    forall q | dir + q in copied
      ensures LIBC_TEST_REPO + q in built
    {
      var p := dir + q;
      assert Within(p, dir);
      assert p[|dir|..] == q;
    }
  }

  /** Puts the other tests into the root file system (built first if
      missing). On riscv64 the prebuilt `oscomp` tests are copied in; the
      x86_64 tests are compiled by an external compiler. */
  function PutOtherTest(fs: FileMap, a: Arch, tools: Tools): (r: Option<FileMap>)
    ensures MakeRootfs(fs, a, false, tools).None? ==> r.None?
    ensures a == X86_64 ==> r == MakeRootfs(fs, a, false, tools)
    ensures a == Riscv64 && MakeRootfs(fs, a, false, tools).Some? ==> r == OtherTestInto(MakeRootfs(fs, a, false, tools).value)
  {
    match MakeRootfs(fs, a, false, tools)
    case None => None
    case Some(built) =>
      match a
      case Riscv64 => OtherTestInto(built)
      case X86_64 => Some(built)
  }

  /** Copies the prebuilt riscv64 `oscomp` tests into the root file system:
      they are mirrored there and nothing outside that directory changes. */
  function OtherTestInto(built: FileMap): (r: Option<FileMap>)
    ensures var src := Target(Riscv64) + ["rootfs", "oscomp"];
            var dst := Rootfs(Riscv64) + ["oscomp"];
            && (r.Some? <==> IsDir(built, src))
            && (r.Some? ==> SameOutside(r.value, built, dst))
            && (r.Some? ==> forall q :: src + q in built ==> dst + q in r.value && r.value[dst + q] == built[src + q])
  {
    CopyDir(built, Target(Riscv64) + ["rootfs", "oscomp"], Rootfs(Riscv64) + ["oscomp"])
  }
}

=== FILE: vmo.dfy ===
/** The VMO kernel object: a wrapper that adds an identity (koid, name), the
    koid of the parent it was cloned from, and a resizability flag to an
    implementation that holds the memory — paged memory, or a physical
    window (see PhysicalVmo). */
module VmObjects {
  import opened Zircon
  import PhysicalVmo

  /** The memory behind a VMO. Paged memory is its byte contents (its own
      implementation is not part of this model). */
  datatype Inner = Paged(data: seq<byte>) | Physical(phys: PhysicalVmo.VmoPhysical)

  datatype VmObject = VmObject(koid: nat, name: seq<byte>, parentKoid: nat, resizable: bool, inner: Inner)

  predicate Valid(v: VmObject) {
    v.inner.Physical? ==> PhysicalVmo.Valid(v.inner.phys)
  }

  function Len(v: VmObject): nat {
    match v.inner
    case Paged(data) => |data|
    case Physical(p) => PhysicalVmo.Len(p)
  }

  // ---------------------------------------------------------------------
  // Construction

  /** A new paged VMO of `pages` zeroed pages; `koid` is the identity the
      kernel allocates for it. It is resizable, unnamed and has no parent. */
  function NewPaged(koid: nat, pages: nat): (v: VmObject)
    ensures Valid(v) && v.koid == koid && v.name == []
    ensures v.resizable && v.parentKoid == 0
    ensures Len(v) == pages * PAGE_SIZE
  {
    VmObject(koid, [], 0, true, Paged(Zeros(pages * PAGE_SIZE)))
  }

  /** As NewPaged, with the resizability given by the caller. */
  function NewPagedWithResizable(koid: nat, resizable: bool, pages: nat): (v: VmObject)
    ensures Valid(v) && v.koid == koid && v.name == []
    ensures v.resizable == resizable && v.parentKoid == 0
    ensures Len(v) == pages * PAGE_SIZE
  {
    VmObject(koid, [], 0, resizable, Paged(Zeros(pages * PAGE_SIZE)))
  }

  /** A VMO over `pages` pages of physical memory at `paddr`, whose memory
      holds `contents`. It is marked resizable and has no parent. */
  function NewPhysical(koid: nat, paddr: nat, pages: nat, contents: seq<byte>): (v: VmObject)
    requires PageAligned(paddr)
    requires paddr + pages * PAGE_SIZE <= WORD_MODULUS
    requires |contents| == pages * PAGE_SIZE
    ensures Valid(v) && v.koid == koid && v.name == []
    ensures v.resizable && v.parentKoid == 0
    ensures Len(v) == pages * PAGE_SIZE
  {
    VmObject(koid, [], 0, true, Physical(PhysicalVmo.New(paddr, pages, contents)))
  }

  /** A child of `parent`, with identity `childKoid`: it carries the
      parent's name, records the parent's koid and has the requested
      resizability. Its memory is what the parent's implementation gives the
      child (`childData` for paged memory, not part of this model); a
      physical parent has no child implementation, and the kernel stops. */
  function CreateChild(parent: VmObject, childKoid: nat, resizable: bool, childData: seq<byte>)
    : (r: Outcome<VmObject>)
    ensures r.Panicked? <==> parent.inner.Physical?
    ensures !r.Refused?
    ensures r.Done? ==> && r.value.koid == childKoid
                        && r.value.parentKoid == parent.koid
                        && r.value.name == parent.name
                        && r.value.resizable == resizable
                        && r.value.inner == Paged(childData)
  {
    match parent.inner
    case Physical(_) => Panicked
    case Paged(_) => Done(VmObject(childKoid, parent.name, parent.koid, resizable, Paged(childData)))
  }

  // ---------------------------------------------------------------------
  // Length

  /** Sets the length: refused with UNAVAILABLE, changing nothing, unless
      the VMO is resizable. A resizable VMO hands the new length to its
      memory and keeps everything else; the paged resize is `resizePaged`
      (not part of this model), and a physical window cannot change its
      length, so the kernel stops. */
  function SetLen(v: VmObject, len: nat, resizePaged: (seq<byte>, nat) -> seq<byte>): (r: Outcome<VmObject>)
    ensures r.Refused? <==> !v.resizable
    ensures r.Refused? ==> r.error == Unavailable
    ensures r.Panicked? <==> v.resizable && v.inner.Physical?
    ensures r.Done? ==> && r.value.inner == Paged(resizePaged(v.inner.data, len))
                        && r.value.koid == v.koid && r.value.name == v.name
                        && r.value.parentKoid == v.parentKoid && r.value.resizable
  {
    if v.resizable then
      match v.inner
      case Paged(data) => Done(v.(inner := Paged(resizePaged(data, len))))
      case Physical(_) => Panicked
    else
      Refused(Unavailable)
  }

  /** On paged memory SetLen succeeds exactly when the VMO is resizable, and
      a refused call leaves the VMO without a new length. */
  lemma SetLenSucceedsIffResizable(v: VmObject, len: nat, resizePaged: (seq<byte>, nat) -> seq<byte>)
    requires v.inner.Paged?
    ensures SetLen(v, len, resizePaged).Done? <==> v.resizable
    ensures !v.resizable ==> SetLen(v, len, resizePaged) == Refused(Unavailable)
  {
  }

  // ---------------------------------------------------------------------
  // Information record

  const INFO_NAME_LEN: nat := 32

  /** Bits of the `flags` field of the information record. */
  const TYPE_PHYSICAL: bv32 := 0
  const TYPE_PAGED: bv32 := 1 << 0
  const RESIZABLE: bv32 := 1 << 1
  const IS_COW_CLONE: bv32 := 1 << 2
  const VIA_HANDLE: bv32 := 1 << 3
  const VIA_MAPPING: bv32 := 1 << 4
  const PAGER_BACKED: bv32 := 1 << 5
  const CONTIGUOUS: bv32 := 1 << 6

  datatype VmoInfo = VmoInfo(
    koid: nat,
    name: seq<byte>,
    size: nat,
    parentKoid: nat,
    numChildren: nat,
    numMappings: nat,
    shareCount: nat,
    flags: bv32,
    committedBytes: nat,
    rights: bv32,
    cachePolicy: nat)

  /** The fixed-size name field: the first bytes of the name, as many as fit,
      then zeros. */
  function InfoName(name: seq<byte>): (arr: seq<byte>)
    ensures |arr| == INFO_NAME_LEN
    ensures forall i :: 0 <= i < INFO_NAME_LEN ==> arr[i] == (if i < |name| then name[i] else 0)
  {
    var length := if |name| < INFO_NAME_LEN then |name| else INFO_NAME_LEN;
    name[..length] + Zeros(INFO_NAME_LEN - length)
  }

  /** The bytes of a name field before its first zero byte. */
  function DecodeInfoName(arr: seq<byte>): (name: seq<byte>)
    ensures |name| <= |arr| && name == arr[..|name|]
    ensures forall i :: 0 <= i < |name| ==> name[i] != 0
    ensures |name| < |arr| ==> arr[|name|] == 0
  {
    if |arr| == 0 || arr[0] == 0 then []
    else [arr[0]] + DecodeInfoName(arr[1..])
  }

  /** Decoding stops at the first zero byte, or at the end. */
  lemma {:induction false} DecodeStopsAtZero(arr: seq<byte>, k: nat)
    requires k <= |arr|
    requires forall i :: 0 <= i < k ==> arr[i] != 0
    requires k == |arr| || arr[k] == 0
    ensures DecodeInfoName(arr) == arr[..k]
    decreases k
  {
    if k > 0 {
      DecodeStopsAtZero(arr[1..], k - 1);
      assert arr[..k] == [arr[0]] + arr[1..][..k - 1];
    }
  }

  /** A name without zero bytes comes back from its name field, cut to the
      field's length. */
  lemma {:induction false} InfoNameRoundTrip(name: seq<byte>)
    requires forall i :: 0 <= i < |name| ==> name[i] != 0
    ensures DecodeInfoName(InfoName(name)) == (if |name| < INFO_NAME_LEN then name else name[..INFO_NAME_LEN])
  {
    var length := if |name| < INFO_NAME_LEN then |name| else INFO_NAME_LEN;
    DecodeStopsAtZero(InfoName(name), length);
    assert InfoName(name)[..length] == name[..length];
  }

  /** The record the VMO object fills in itself: identity, name field, size,
      parent, and RESIZABLE as its only flag when the VMO is resizable; all
      other fields zero, the handle rights included (they are left empty
      here). */
  function BaseInfo(v: VmObject): (info: VmoInfo)
    ensures info.koid == v.koid && info.parentKoid == v.parentKoid
    ensures info.name == InfoName(v.name)
    ensures info.size == Len(v)
    ensures info.flags & RESIZABLE != 0 <==> v.resizable
    ensures info.flags & !RESIZABLE == 0
    ensures info.numChildren == 0 && info.numMappings == 0 && info.shareCount == 0
    ensures info.committedBytes == 0 && info.cachePolicy == 0
    ensures info.rights == 0
  {
    VmoInfo(v.koid, InfoName(v.name), Len(v), v.parentKoid, 0, 0, 0,
            if v.resizable then RESIZABLE else 0, 0, 0, 0)
  }

  /** The information record: the base record completed by the memory
      implementation. The paged completion is `completePaged` (not part of
      this model); a physical window has none, and the kernel stops. */
  function GetInfo(v: VmObject, completePaged: VmoInfo -> VmoInfo): (r: Outcome<VmoInfo>)
    ensures r.Panicked? <==> v.inner.Physical?
    ensures !r.Refused?
    ensures r.Done? ==> r.value == completePaged(BaseInfo(v))
  {
    match v.inner
    case Physical(_) => Panicked
    case Paged(_) => Done(completePaged(BaseInfo(v)))
  }

  /** A child reports its parent's koid and its own resizability. */
  lemma ChildInfo(parent: VmObject, childKoid: nat, resizable: bool, childData: seq<byte>)
    requires parent.inner.Paged?
    ensures var child := CreateChild(parent, childKoid, resizable, childData).value;
            && BaseInfo(child).parentKoid == parent.koid
            && BaseInfo(child).name == BaseInfo(parent).name
            && (BaseInfo(child).flags & RESIZABLE != 0 <==> resizable)
  {
  }

  // ---------------------------------------------------------------------
  // Reading and writing

  /** The `n` bytes at `offset`; the range must lie inside the VMO. */
  function Read(v: VmObject, offset: nat, n: nat): (buf: seq<byte>)
    requires Valid(v)
    requires offset + n <= Len(v)
    ensures |buf| == n
  {
    match v.inner
    case Paged(data) => data[offset..offset + n]
    case Physical(p) => PhysicalVmo.Read(p, offset, n).value
  }

  /** Stores `buf` at `offset`; the range must lie inside the VMO. Only the
      memory changes. */
  function Write(v: VmObject, offset: nat, buf: seq<byte>): (w: VmObject)
    requires Valid(v)
    requires offset + |buf| <= Len(v)
    ensures Valid(w) && Len(w) == Len(v)
    ensures w.koid == v.koid && w.name == v.name && w.parentKoid == v.parentKoid && w.resizable == v.resizable
    ensures w.inner.Paged? == v.inner.Paged?
  {
    match v.inner
    case Paged(data) => v.(inner := Paged(WriteAt(data, offset, buf)))
    case Physical(p) => v.(inner := Physical(PhysicalVmo.Write(p, offset, buf).value))
  }

  /** Bytes written at an offset are read back from it, and every range
      disjoint from the written one reads as before, whatever memory backs
      the VMO. */
  lemma WriteThenRead(v: VmObject, offset: nat, buf: seq<byte>)
    requires Valid(v)
    requires offset + |buf| <= Len(v)
    ensures Read(Write(v, offset, buf), offset, |buf|) == buf
    ensures forall o: nat, n: nat :: o + n <= Len(v) && (o + n <= offset || offset + |buf| <= o) ==>
              Read(Write(v, offset, buf), o, n) == Read(v, o, n)
  {
    var w := Write(v, offset, buf);
    forall o: nat, n: nat | o + n <= Len(v) && (o + n <= offset || offset + |buf| <= o)
      ensures Read(w, o, n) == Read(v, o, n)
    {
      match v.inner
      case Paged(data) =>
        var after := WriteAt(data, offset, buf);
        assert w.inner == Paged(after);
        var x, y := after[o..o + n], data[o..o + n];
        assert forall i :: 0 <= i < n ==> x[i] == y[i];
      case Physical(p) =>
        PhysicalVmo.WriteThenRead(p, offset, buf, o, n);
    }
  }

  /** The wrapper's read/write unit test, on a physical VMO of two pages at
      0x1000. */
  lemma ReadWriteTest(koid: nat, contents: seq<byte>)
    requires |contents| == 2 * PAGE_SIZE
    ensures var v := NewPhysical(koid, 0x1000, 2, contents);
            Read(Write(v, 0, [0, 1, 2, 3]), 0, 4) == [0, 1, 2, 3]
  {
    var v := NewPhysical(koid, 0x1000, 2, contents);
    WriteThenRead(v, 0, [0, 1, 2, 3]);
  }

  // ---------------------------------------------------------------------
  // Unmapping

  /** Page mappings of an address space: virtual page address to physical
      page address. */
  type PageTable = map<nat, nat>

  /** The page boundaries `vaddr`, `vaddr + PAGE_SIZE`, ... below
      `vaddr + pages * PAGE_SIZE`. */
  predicate InPageRun(vaddr: nat, pages: nat, a: nat) {
    vaddr <= a < vaddr + pages * PAGE_SIZE && (a - vaddr) % PAGE_SIZE == 0
  }

  /** Removes the mappings of `pages` consecutive pages starting at `vaddr`;
      all other mappings stay as they are. */
  function UnmapCont(pt: PageTable, vaddr: nat, pages: nat): (r: PageTable)
    ensures forall a :: a in r <==> a in pt && !InPageRun(vaddr, pages, a)
    ensures forall a :: a in r ==> r[a] == pt[a]
    decreases pages
  {
    if pages == 0 then pt
    else
      var rest := UnmapCont(pt - {vaddr}, vaddr + PAGE_SIZE, pages - 1);
      assert forall a :: InPageRun(vaddr, pages, a) <==> a == vaddr || InPageRun(vaddr + PAGE_SIZE, pages - 1, a);
      rest
  }

  /** Default unmapping of a VMO mapped at `vaddr` with length `len`: the
      `len / PAGE_SIZE` whole pages from `vaddr` (the offset is not used). */
  function UnmapFrom(pt: PageTable, vaddr: nat, offset: nat, len: nat): (r: PageTable)
    ensures forall a :: a in r <==> a in pt && !InPageRun(vaddr, len / PAGE_SIZE, a)
    ensures forall a :: a in r ==> r[a] == pt[a]
  {
    UnmapCont(pt, vaddr, len / PAGE_SIZE)
  }
}

=== FILE: vmo_physical.dfy ===
/** A VMO that is a fixed window onto physical memory: `pages` whole pages
    starting at the page-aligned physical address `paddr`. The bytes of the
    window are carried with the record; reading and writing the VMO reads
    and writes them. Offsets, lengths and addresses are `usize` values, and
    the code's sums wrap modulo 2^64. */
module PhysicalVmo {
  import opened Zircon

  datatype VmoPhysical = VmoPhysical(paddr: nat, pages: nat, mem: seq<byte>)

  /** What construction establishes and no operation breaks: the window is
      page-aligned, is physical memory (it ends within the 64-bit address
      space), and its bytes are the ones carried with the record. */
  predicate Valid(v: VmoPhysical) {
    && PageAligned(v.paddr)
    && v.paddr + v.pages * PAGE_SIZE <= WORD_MODULUS
    && |v.mem| == v.pages * PAGE_SIZE
  }

  /** Length of the window in bytes: whole pages, as many as the VMO was
      created with. A valid window's length does not wrap. */
  function Len(v: VmoPhysical): (n: nat)
    ensures PageAligned(n) && n / PAGE_SIZE == v.pages
    ensures Valid(v) ==> n == |v.mem| && v.paddr + n <= WORD_MODULUS
  {
    v.pages * PAGE_SIZE
  }

  /** A VMO over `pages` pages at `paddr`, whose memory currently holds
      `contents`. The code asserts that `paddr` is page-aligned; the caller
      owns the memory, so the window lies inside the address space. */
  function New(paddr: nat, pages: nat, contents: seq<byte>): (v: VmoPhysical)
    requires PageAligned(paddr)
    requires paddr + pages * PAGE_SIZE <= WORD_MODULUS
    requires |contents| == pages * PAGE_SIZE
    ensures Valid(v)
    ensures v.paddr == paddr && Len(v) == pages * PAGE_SIZE && v.mem == contents
  {
    VmoPhysical(paddr, pages, contents)
  }

  /** What a read or a write does. The bound check of the code is computed
      in `usize`: when `offset + len` wraps, a range that runs past the end
      of the window passes it, and the access goes to physical memory from
      the address `start` on, which the VMO does not own. */
  datatype Access<T> = InWindow(value: T) | PastWindow(start: nat) | AssertStop

  /** The `n` bytes at `offset`. A range inside the window is read from it;
      one that ends past the window but whose wrapped end passes the check
      reads from `paddr + offset` (wrapped) on; otherwise the assert stops
      the kernel. */
  function Read(v: VmoPhysical, offset: nat, n: nat): (r: Access<seq<byte>>)
    requires Valid(v)
    ensures r.InWindow? <==> offset + n <= Len(v)
    ensures r.InWindow? ==> |r.value| == n && forall i :: 0 <= i < n ==> r.value[i] == v.mem[offset + i]
    ensures r.PastWindow? ==> Len(v) < offset + n
    ensures offset < WORD_MODULUS && n < WORD_MODULUS ==>
              (r.PastWindow? <==> Len(v) < offset + n && WORD_MODULUS <= offset + n <= Len(v) + WORD_MODULUS)
    ensures r.PastWindow? ==> r.start == Wrap(v.paddr + offset)
  {
    if offset + n <= Len(v) then InWindow(v.mem[offset..offset + n])
    else if Wrap(offset + n) <= Len(v) then PastWindow(Wrap(v.paddr + offset))
    else AssertStop
  }

  /** Stores `buf` at `offset`, with the same three cases as Read. A write
      inside the window changes only the written bytes; the window itself
      (address, page count, length) is fixed. */
  function Write(v: VmoPhysical, offset: nat, buf: seq<byte>): (r: Access<VmoPhysical>)
    requires Valid(v)
    ensures r.InWindow? <==> offset + |buf| <= Len(v)
    ensures r.InWindow? ==> var w := r.value;
              && Valid(w)
              && w.paddr == v.paddr && w.pages == v.pages && Len(w) == Len(v)
              && Read(w, offset, |buf|) == InWindow(buf)
              && forall i :: 0 <= i < Len(v) && !(offset <= i < offset + |buf|) ==> w.mem[i] == v.mem[i]
    ensures r.PastWindow? ==> Len(v) < offset + |buf|
    ensures offset < WORD_MODULUS && |buf| < WORD_MODULUS ==>
              (r.PastWindow? <==> Len(v) < offset + |buf| && WORD_MODULUS <= offset + |buf| <= Len(v) + WORD_MODULUS)
    ensures r.PastWindow? ==> r.start == Wrap(v.paddr + offset)
  {
    if offset + |buf| <= Len(v) then InWindow(v.(mem := WriteAt(v.mem, offset, buf)))
    else if Wrap(offset + |buf|) <= Len(v) then PastWindow(Wrap(v.paddr + offset))
    else AssertStop
  }

  /** The overflow the check lets through: two bytes before the end of the
      address space and four bytes long, the sum wraps to 2, which passes
      the check of any VMO of at least one page, and the access starts two
      bytes below the window. */
  lemma WrappedCheckPasses(v: VmoPhysical, buf: seq<byte>)
    requires Valid(v) && v.pages > 0 && v.paddr >= 2
    requires |buf| == 4
    ensures Read(v, WORD_MODULUS - 2, 4) == PastWindow(v.paddr - 2)
    ensures Write(v, WORD_MODULUS - 2, buf) == PastWindow(v.paddr - 2)
  {
    ModMultiple(v.paddr - 2, 1);
  }

  /** Number of distinct page addresses in the 64-bit address space. */
  const SPACE_PAGES: nat := WORD_MODULUS / PAGE_SIZE

  /** Physical address of page `pageIdx`, computed in `usize`. The index is
      not checked: an index inside the window gives a page of the window,
      `pageIdx` pages after its start; any index gives a page boundary. */
  function GetPage(v: VmoPhysical, pageIdx: nat): (pa: nat)
    requires Valid(v)
    ensures pa < WORD_MODULUS && PageAligned(pa)
    ensures pageIdx < v.pages ==> (&& v.paddr <= pa && pa + PAGE_SIZE <= v.paddr + Len(v)
                                   && (pa - v.paddr) / PAGE_SIZE == pageIdx)
  {
    Wrap(v.paddr + Wrap(pageIdx * PAGE_SIZE))
  }

  /** Two page indices give the same address exactly when they agree modulo
      the number of pages in the address space: the address wraps every
      2^52 pages. */
  lemma GetPageAliases(v: VmoPhysical, i: nat, j: nat)
    requires Valid(v)
    ensures GetPage(v, i) == GetPage(v, j) <==> i % SPACE_PAGES == j % SPACE_PAGES
  {
    GetPageReduce(v, i);
    GetPageReduce(v, j);
    var ri, rj := i % SPACE_PAGES, j % SPACE_PAGES;
    if ri < rj {
      assert v.paddr + ri * PAGE_SIZE < v.paddr + rj * PAGE_SIZE <= v.paddr + ri * PAGE_SIZE + WORD_MODULUS - PAGE_SIZE;
      DistinctBelowModulus(v.paddr + ri * PAGE_SIZE, v.paddr + rj * PAGE_SIZE);
    } else if rj < ri {
      assert v.paddr + rj * PAGE_SIZE < v.paddr + ri * PAGE_SIZE <= v.paddr + rj * PAGE_SIZE + WORD_MODULUS - PAGE_SIZE;
      DistinctBelowModulus(v.paddr + rj * PAGE_SIZE, v.paddr + ri * PAGE_SIZE);
    }
  }

  /** The page address depends on the index only modulo 2^52. */
  lemma GetPageReduce(v: VmoPhysical, i: nat)
    requires Valid(v)
    ensures GetPage(v, i) == Wrap(v.paddr + (i % SPACE_PAGES) * PAGE_SIZE)
  {
    var q, r := i / SPACE_PAGES, i % SPACE_PAGES;
    PageProduct(i, q, r);
    WrapAdd(v.paddr, i * PAGE_SIZE);
    ModMultiple(v.paddr + r * PAGE_SIZE, q);
  }

  /** Splitting a page index at 2^52 pages splits its byte offset at 2^64. */
  lemma PageProduct(i: nat, q: nat, r: nat)
    requires i == q * SPACE_PAGES + r
    ensures i * PAGE_SIZE == r * PAGE_SIZE + q * WORD_MODULUS
  {
  }

  /** Wrapping an addend first does not change a wrapped sum. */
  lemma WrapAdd(a: int, x: int)
    ensures Wrap(a + Wrap(x)) == Wrap(a + x)
  {
    var q := x / WORD_MODULUS;
    assert a + Wrap(x) == a + x + (-q) * WORD_MODULUS;
    ModMultiple(a + x, -q);
  }

  /** Two numbers less than 2^64 apart have different words. */
  lemma DistinctBelowModulus(x: int, y: int)
    requires x < y < x + WORD_MODULUS
    ensures Wrap(x) != Wrap(y)
  {
  }

  /** Distinct pages of the window have distinct addresses. */
  lemma GetPageInjective(v: VmoPhysical, i: nat, j: nat)
    requires Valid(v)
    requires i < v.pages && j < v.pages
    requires GetPage(v, i) == GetPage(v, j)
    ensures i == j
  {
    GetPageAliases(v, i, j);
  }

  /** Page 0 and page 2^52 share an address: the index is not checked, and
      the product wraps. */
  lemma GetPageAliasExample(v: VmoPhysical)
    requires Valid(v)
    ensures GetPage(v, 0) == GetPage(v, SPACE_PAGES)
  {
    GetPageAliases(v, 0, SPACE_PAGES);
  }

  /** Reading back a range just written gives the written bytes, and a range
      disjoint from it is unchanged. */
  lemma WriteThenRead(v: VmoPhysical, offset: nat, buf: seq<byte>, offset2: nat, n: nat)
    requires Valid(v)
    requires offset + |buf| <= Len(v) && offset2 + n <= Len(v)
    requires offset2 + n <= offset || offset + |buf| <= offset2
    ensures Write(v, offset, buf).InWindow?
    ensures Read(Write(v, offset, buf).value, offset, |buf|) == InWindow(buf)
    ensures Read(Write(v, offset, buf).value, offset2, n) == Read(v, offset2, n)
  {
    var w := Write(v, offset, buf).value;
    var x, y := w.mem[offset2..offset2 + n], v.mem[offset2..offset2 + n];
    assert forall i :: 0 <= i < n ==> x[i] == y[i];
    assert x == y;
  }

  /** The example of the unit test: two pages at 0x1000, four bytes written
      at offset 0 and read back. */
  lemma ReadWriteExample(contents: seq<byte>)
    requires |contents| == 2 * PAGE_SIZE
    ensures var v := New(0x1000, 2, contents);
            Read(Write(v, 0, [0, 1, 2, 3]).value, 0, 4) == InWindow([0, 1, 2, 3])
  {
  }
}

=== FILE: zircon.dfy ===
/** Definitions shared by the kernel-object models: bytes, the page size and
    page arithmetic, the kernel's status codes and the shape of an operation
    that can succeed, be refused with a status, or stop the kernel. */
module Zircon {

  type byte = bv8

  /** Size of one page of memory on both supported architectures. */
  const PAGE_SIZE: nat := 0x1000

  /** Number of pages needed to hold `n` bytes (ceiling division). */
  function Pages(n: nat): (p: nat)
    ensures p * PAGE_SIZE >= n
    ensures p == 0 || (p - 1) * PAGE_SIZE < n
  {
    (n + PAGE_SIZE - 1) / PAGE_SIZE
  }

  /** `usize` is 64 bits wide; address arithmetic wraps modulo 2^64 (a
      release build; a debug build stops on overflow instead). */
  const WORD_MODULUS: nat := 0x1_0000_0000_0000_0000

  /** `x` reduced to a 64-bit unsigned word (two's complement for negative
      `x`, which is what an `i64 as usize` cast followed by a wrapping add
      yields). */
  function Wrap(x: int): nat {
    x % WORD_MODULUS
  }

  /** Adding a multiple of 2^64 does not change a word. */
  lemma ModMultiple(x: int, q: int)
    ensures (x + q * WORD_MODULUS) % WORD_MODULUS == x % WORD_MODULUS
  {
    var r := x % WORD_MODULUS;
    assert x == (x / WORD_MODULUS) * WORD_MODULUS + r;
    assert x + q * WORD_MODULUS == (x / WORD_MODULUS + q) * WORD_MODULUS + r;
  }

  /** True when `x` is a multiple of the page size. */
  predicate PageAligned(x: nat) {
    x % PAGE_SIZE == 0
  }

  /** `x` rounded down to a page boundary. */
  function RoundDown(x: nat): (r: nat)
    ensures PageAligned(r)
    ensures r <= x < r + PAGE_SIZE
  {
    x / PAGE_SIZE * PAGE_SIZE
  }

  /** A byte sequence of `n` zeros. */
  function Zeros(n: nat): (z: seq<byte>)
    ensures |z| == n
    ensures forall i :: 0 <= i < n ==> z[i] == 0
  {
    seq(n, _ => 0)
  }

  /** Writes `data` into `buf` starting at `offset`; every other byte of
      `buf` keeps its value. */
  function WriteAt(buf: seq<byte>, offset: nat, data: seq<byte>): (r: seq<byte>)
    requires offset + |data| <= |buf|
    ensures |r| == |buf|
    ensures r[offset..offset + |data|] == data
    ensures forall i :: offset <= i < offset + |data| ==> r[i] == data[i - offset]
    ensures forall i :: 0 <= i < |buf| && !(offset <= i < offset + |data|) ==> r[i] == buf[i]
  {
    buf[..offset] + data + buf[offset + |data|..]
  }

  datatype Option<T> = None | Some(value: T)

  /** Kernel status codes used by the modelled code (numeric values are not
      needed by any property). */
  datatype ZxError =
    | InvalidArgs
    | AccessDenied
    | Unavailable
    | BadHandle
    | WrongType
    | OutOfRange

  /** Result of a kernel operation that either yields a value or fails with a
      status code. */
  datatype ZxResult<T> = Ok(value: T) | Err(error: ZxError)

  /** Result of an operation whose code can also stop the kernel
      (`unimplemented!`, a failed `assert!`): `Panicked` stands for that stop. */
  datatype Outcome<T> = Done(value: T) | Refused(error: ZxError) | Panicked
}
